=== FILE: README.md ===
# Sharded downloads, Git LFS helpers and an output-capturing callback

This project models, in Dafny, the core of a personal Python utility
collection:

- The sharded HTTP downloader of `kn_util/utils/download.py`:
  - how a file is cut into byte ranges (`_calc_divisional_range`);
  - the names of the hidden shard and progress files beside the output;
  - the per-shard progress record, written as big-endian byte counts;
  - the resume/retry loop of one shard (`_async_range_download`);
  - how shards are put back together (`merge_shard_files`,
    `write_shard_async`, the in-memory concatenation);
  - the checks the front end makes before splitting;
  - the `axel` and `wget` command lines.
- The command-line helpers of `kn_util/tools/lfs.py`:
  - reading a repository URL;
  - parsing `git lfs ls-files` output;
  - batching for uploads;
  - the pending-download filter;
  - the proxy choice;
  - the `pull` fetch loop;
  - the `wait` poll over running downloads.
- The `CaptureOutput` callback of `util/pl_utils/callbacks.py`.

The file system is a `Files.Disk` object whose `files` map the methods
update in place. The HTTP server is a function `Server` from (attempt
number, first byte requested) to the chunks streamed and how the stream
ended. Python's integer semantics are written out where they matter:
`//` floors (`PyRange.FloorDiv`), `range` is `PyRange.Starts`, and
`int.to_bytes`/`int.from_bytes` are `BigEndian.ToBytes`/`FromBytes`.

The range planner, `_calc_divisional_range` (download.py:205-209), steps
through `range(0, filesize, filesize // num_shards)`. It therefore yields
`ceil(filesize / step)` ranges, which is never fewer than `num_shards` and
sometimes more: 19 bytes in 10 shards give 19 ranges.
`RangePlanner.PlanCount` and `PlanCountAtLeastShards` prove this, and
`NineteenBytesTenShards` shows the example.

## Model

| member | source | states |
|---|---|---|
| BigEndian.ByteLengthIsMinimal | kn_util/utils/download.py:66-67 | `(bit_length + 7) // 8` is the least byte count whose range holds the value; 0 needs no bytes |
| BigEndian.BitLengthBounds | kn_util/utils/download.py:67 | `bit_length` brackets the value between consecutive powers of two |
| BigEndian.FromToBytes | kn_util/utils/download.py:106-110 | decoding `to_bytes(v, len)` gives `v` back whenever `v` fits in `len` bytes |
| BigEndian.FromBytesAppend | kn_util/utils/download.py:106 | `from_bytes(a + b)` is `from_bytes(a)` shifted by `len(b)` bytes plus `from_bytes(b)` |
| BigEndian.FromBytesBound | kn_util/utils/download.py:106 | any `n` bytes decode to a value below `256^n` |
| ShardPaths.OutputPathIsBasename | kn_util/utils/download.py:73-75 | `url.split("/")[-1]` is the URL's base name and contains no slash |
| ShardPaths.ShardPathBeside | kn_util/utils/download.py:123-124 | the shard file lies in the output's directory, named `.{basename}.tmp{s}-{e}` |
| ShardPaths.ShardPathsDistinct | kn_util/utils/download.py:123-124 | two ranges with the same shard path are the same range |
| ShardPaths.ShardPathIsNotOutput | kn_util/utils/download.py:123-124 | a shard path is never the output path |
| ShardPaths.ProgressPathBeside | kn_util/utils/download.py:100 | the progress file lies in the output's directory, named `.{basename}.progress` |
| ShardPaths.ProgressPathIsSeparate | kn_util/utils/download.py:100-124 | the progress file is neither a shard file nor the output |
| PosixPath.JoinBeside | kn_util/utils/download.py:124 | joining a slash-free name to `dirname(p)` gives a path with that directory and that base name |
| PyRange.FloorDiv | kn_util/utils/download.py:206 | the quotient rounds toward minus infinity for either sign of the divisor |
| PyRange.StartsShape | kn_util/utils/download.py:207 | `range(lo, hi, step)` yields `lo + k*step`, and its count `n` satisfies `(n-1)*step < hi-lo <= n*step` |
| PyRange.StartsBounds | kn_util/utils/download.py:207 | every value of the range lies in `[lo, hi)`, and the last is within one step of `hi` |
| RangePlanner.CalcDivisionalRange | kn_util/utils/download.py:205-209 | the loop builds the plan; it succeeds exactly when `0 < num_shards <= filesize`, and its ranges then partition `[0, filesize)` |
| RangePlanner.PlanSucceeds | kn_util/utils/download.py:205-209 | a plan exists exactly when `0 < chuck <= filesize`; otherwise it is a zero division, a zero `range` step or an index error |
| RangePlanner.PlanShape | kn_util/utils/download.py:205-209 | range `k` starts at `k*step`; all ranges but the last are `step` long; the last holds 1 to `step` bytes; together they partition the file |
| RangePlanner.PlanCount | kn_util/utils/download.py:205-209 | the number `n` of ranges satisfies `step*chuck <= filesize <= n*step` |
| RangePlanner.PlanCountAtLeastShards | kn_util/utils/download.py:205-209 | a plan never has fewer ranges than the shard count asked for |
| RangePlanner.NineteenBytesTenShards | kn_util/utils/download.py:205-209 | 19 bytes in 10 shards give 19 one-byte ranges |
| RangePlanner.SmallFileFails | kn_util/utils/download.py:206-207 | a file smaller than the shard count gives a zero `range` step, which raises |
| RangePlanner.ThousandBytesFourShards | kn_util/utils/download.py:205-209 | 1000 bytes in 4 shards give `[0,249] [250,499] [500,749] [750,999]` |
| RangePlanner.PartitionCovers | kn_util/utils/download.py:205-209 | in a partition, every byte of the file belongs to exactly one range |
| RangePlanner.PartitionTotal | kn_util/utils/download.py:205-209 | the range lengths of a partition add up to the file size |
| RangePlanner.PartitionOrdered | kn_util/utils/download.py:205-209 | earlier ranges end before later ones start |
| RangePlanner.PartitionBounds | kn_util/utils/download.py:205-209 | every range lies within the file |
| ProgressStore.DecodeSlots | kn_util/utils/download.py:103-106 | an existing progress file gives one number per shard, however short the file is |
| ProgressStore.ReadChunkProgress | kn_util/utils/download.py:99-112 | an existing file is decoded slot by slot and left unchanged; a missing one is created with one zero slot per shard, and the result is all zeros |
| ProgressStore.FreshFileReadsZero | kn_util/utils/download.py:107-111 | the file created for a fresh download reads back as all zeros, so a later read agrees with the first |
| ProgressStore.WriteChunkProgress | kn_util/utils/download.py:115-120 | a missing progress file raises FileNotFoundError and changes nothing; otherwise the minimal encoding of the count is written at the slot's offset |
| ProgressStore.WriteSlotFootprint | kn_util/utils/download.py:118-120 | a write changes only the bytes from the slot's offset up to the count's minimal length; a count of 0 changes nothing |
| ProgressStore.SlotAfterWrite | kn_util/utils/download.py:105-120 | after a write, a slot holds the written bytes cut to the slot width, or followed by the slot's old bytes |
| ProgressStore.ReadAfterWrite | kn_util/utils/download.py:99-120 | as written, a positive count reads back as itself exactly when its minimal length equals the slot width |
| ProgressStore.ShortWriteMisreads | kn_util/utils/download.py:105-120 | an encoding shorter than the slot reads back at least 256 times too large |
| ProgressStore.LongWriteMisreads | kn_util/utils/download.py:105-120 | an encoding longer than the slot reads back at least 256 times too small |
| ProgressStore.WriteOneReadsTwoToThe56 | kn_util/utils/download.py:99-120 | with 8-byte slots, writing 1 into a zeroed slot makes it read as 2^56 |
| ProgressStore.ReadAfterWriteZero | kn_util/utils/download.py:119-120 | writing a count of 0 leaves the file as it was |
| ProgressStore.WriteChunkProgressFixed | kn_util/utils/download.py:115-120 | the corrected write encodes on the full slot width, and raises OverflowError when the count does not fit |
| ProgressStore.ReadAfterFixedWrite | kn_util/utils/download.py:99-120 | after the corrected write, the written slot reads as the count and every other slot reads as before |
| ProgressStore.OtherSlotUnchanged | kn_util/utils/download.py:118-120 | a full-width write leaves every other slot's bytes unchanged |
| Files.PositionalWrite | kn_util/utils/download.py:118-120 | `seek(pos); write(w)` overwrites `[pos, pos+len(w))`, pads with zero bytes when `pos` is past the end, and keeps the rest |
| Files.PositionalWriteCompose | kn_util/utils/download.py:131-132 | two writes where the second starts at the end of the first are one write of both |
| Files.PositionalWriteAtEnd | kn_util/utils/download.py:166-182 | writing at the end of the file appends |
| ShardFetch.RangeDownload | kn_util/utils/download.py:139-202 | with an output, the shard file is created if missing; a complete file sends no request; otherwise the file ends as its old bytes plus the replayed retry loop's bytes, and the last network error is raised. Without an output, the replayed bytes are returned in a buffer and the disk is unchanged |
| ShardFetch.RetryLoop | kn_util/utils/download.py:175-197 | request `k` carries `Range: bytes={start_k}-{e_pos}`; the sink receives exactly the replayed bytes; the loop stops on a complete body or after `max_retries` network errors (other exceptions are not modelled; see "## Left out") |
| ShardFetch.Stream | kn_util/utils/download.py:178-186 | one response adds exactly its non-empty chunks to the sink, in order |
| ShardFetch.RetryBound | kn_util/utils/download.py:175-197 | at most `max_retries` requests are sent; at least one when `max_retries > 0`; all of them when the error is raised |
| ShardFetch.RetryEarlierFailed | kn_util/utils/download.py:187-190 | every request but the last ended in a network error |
| ShardFetch.RetryLastOutcome | kn_util/utils/download.py:187-197 | the loop raises exactly when its last request ended in a network error |
| ShardFetch.RetryResumes | kn_util/utils/download.py:168-183 | the first request starts after the bytes already on disk, and each retry starts after everything received so far |
| ShardFetch.ReplaySends | kn_util/utils/download.py:175 | with retries left, at least one request is sent |
| ShardFetch.ReplayStaysInRange | kn_util/utils/download.py:175-197 | against an honest server, the sink receives only the next bytes of the range, and all of them unless the error is raised |
| ShardFetch.ResumeCorrect | kn_util/utils/download.py:164-197 | a resumed shard file always holds a prefix of its range, and the whole range when the loop does not raise |
| ShardFetch.RangeHeaderRoundTrip | kn_util/utils/download.py:177 | the Range header names both ends of the request and can be read back |
| ShardFetch.ResumeScenario | kn_util/utils/download.py:164-177 | shard `[250, 499]` with 100 bytes on disk is resumed with `Range: bytes=350-499` |
| Merge.Read | kn_util/utils/download.py:87 | `read(n)` returns the next `min(n, left)` bytes, and everything left when `n` is negative |
| Merge.AppendCopy | kn_util/utils/download.py:85-91 | the read/write loop appends the whole shard to the output, or nothing when the chunk size is 0 |
| Merge.MergeShardFiles | kn_util/utils/download.py:81-96 | the output is truncated and then holds the shards before the first missing one, in order; the call succeeds exactly when none is missing, and otherwise raises FileNotFoundError naming it |
| Merge.WriteShard | kn_util/utils/download.py:127-132 | a missing output or shard raises FileNotFoundError and changes nothing; otherwise the shard is written into the output at `s_pos` |
| Merge.MergeRestoresBody | kn_util/utils/download.py:81-96 | merging shard files that hold the planned ranges of a body gives back the body |
| Merge.ZeroChunkMergesNothing | kn_util/utils/download.py:86-89 | a chunk size of 0 merges nothing |
| Merge.PositionalAssembly | kn_util/utils/download.py:127-132 | writing each range's bytes at its start offset rebuilds the body |
| Merge.ConcatBuffers | kn_util/utils/download.py:281-285 | the returned buffer is the shard buffers joined in order, of their total size |
| Merge.BuffersRestoreBody | kn_util/utils/download.py:281-285 | buffers that hold the partition's ranges join to the body |
| Downloader.ResolveOut | kn_util/utils/download.py:229-230 | `out="auto"` becomes the URL's slash-free base name; any other value is kept |
| Downloader.ResolveProxy | kn_util/utils/download.py:232-233 | `proxy="auto"` becomes the local proxy; any other value is kept |
| Downloader.ProxyUrl | kn_util/utils/download.py:247 | a client proxy exists exactly when the proxy is truthy, and its URL is `http://` followed by the proxy |
| Downloader.ResolveIdempotent | kn_util/utils/download.py:229-233 | resolving "auto" a second time changes nothing |
| Downloader.AutoProxyUrl | kn_util/utils/download.py:232-247 | "auto" leads to `http://127.0.0.1:8091`; no proxy and an empty proxy lead to none |
| Downloader.AcceptRangesGate | kn_util/utils/download.py:237-239 | the ranged path is taken exactly when the response has a single `Accept-Ranges` field and its value is `bytes` |
| Downloader.AcceptRangesExamples | kn_util/utils/download.py:237 | names match without regard to case; `none`, an absent field and a repeated field all turn the ranged path down |
| Downloader.ContentLengthRoundTrip | kn_util/utils/download.py:243 | a single decimal `Content-Length` field is read as its number |
| Downloader.RepeatedContentLength | kn_util/utils/download.py:243 | a repeated `Content-Length` field is joined with a comma, and `int()` refuses it |
| Downloader.StartDownloadOutcome | kn_util/utils/download.py:237-244 | the call returns without downloading exactly when ranges are not accepted; it is split exactly when the length parses and the plan succeeds, and the ranges then partition the file and number at least `num_shards` |
| Downloader.BuffersFromHonestServers | kn_util/utils/download.py:263-285 | if every shard is served honestly and none gives up, the joined shard buffers are the body |
| Downloader.BufferDownloadRestoresBody | kn_util/utils/download.py:237-285 | end to end: a server that accepts ranges, reports the true length and serves each range honestly gives back the body |
| Downloader.HeaderArgsAppend | kn_util/utils/download.py:339-341 | the header flags of two header lists are the flags of each, in order |
| Downloader.AxelArgsShape | kn_util/utils/download.py:335-348 | axel gets `--proxy` exactly when the resolved proxy is truthy, and its arguments always end with the redirect and timeout limits |
| Downloader.WgetArgsShape | kn_util/utils/download.py:365-373 | wget gets `--proxy=on` exactly when the proxy is truthy; otherwise its arguments start with `--tries`; `--no-check-certificate --continue` is always there |
| Lfs.ParseRepoUrlShape | kn_util/tools/lfs.py:86-95 | a URL is read exactly when it has at least three non-empty components; fewer raise ValueError or IndexError; the repository is one component and the organisation one component, possibly under `datasets/` |
| Lfs.RepoUrlRoundTrip | kn_util/tools/lfs.py:86-95 | the URL of a model repository gives back its organisation and name |
| Lfs.DatasetUrlRoundTrip | kn_util/tools/lfs.py:86-95 | the URL of a dataset repository gives back `datasets/` plus its organisation, and its name |
| Lfs.NonEmptyAppend | kn_util/tools/lfs.py:90 | dropping empty components works piece by piece |
| Lfs.UploadTargetOfUrl | kn_util/tools/lfs.py:352-357 | a repository read from its URL is uploaded to `org/name`, as a dataset exactly when it came from `datasets/` |
| Lfs.LsFilesPaths | kn_util/tools/lfs.py:51-52 | one path per output line, in order |
| Lfs.LsFilesPathRoundTrip | kn_util/tools/lfs.py:52 | a line `oid marker path` whose path has no space gives the path |
| Lfs.LsFilesPathWithSpace | kn_util/tools/lfs.py:52 | a path containing a space comes back as only its last word |
| Lfs.LsFilesPathFixedRoundTrip | kn_util/tools/lfs.py:52 | the corrected parse gives back any stripped path, spaces included |
| Lfs.SlicesAtStarts | kn_util/tools/lfs.py:265 | there is one slice per value of the `range`, and each slice is the list cut at that value |
| Lfs.SlicesShape | kn_util/tools/lfs.py:265 | slice `j` starts at `lo + j*step`, and the number of slices is that of the `range` |
| Lfs.SlicesJoin | kn_util/tools/lfs.py:265 | slices as wide as the step join back to the list |
| Lfs.BatchesShape | kn_util/tools/lfs.py:265 | with a positive size, the batches are `ceil(n/size)` consecutive pieces of the list that join back to it; all are full but the last, which is not empty |
| Lfs.BatchesDegenerate | kn_util/tools/lfs.py:306 | a batch size of 0 raises ValueError, and a negative one gives no batches |
| Lfs.PendingMembers | kn_util/tools/lfs.py:142 | a path is pending exactly when it is listed and not downloaded |
| Lfs.PendingOrder | kn_util/tools/lfs.py:142 | the filter keeps the order, works piece by piece, and filtering twice changes nothing |
| Lfs.PendingDownloads | kn_util/tools/lfs.py:142-143 | URL `k` is the default template filled with pending path `k` |
| Lfs.ChooseProxyCases | kn_util/tools/lfs.py:390-392 | a non-zero port wins, and a positive one can be read back from `http://127.0.0.1:{port}`; a truthy proxy string alone is used as given; otherwise there is no proxy |
| Lfs.FetchLoop | kn_util/tools/lfs.py:61-66 | the loop issues one fetch per `range(0, len(paths), chunk)` value and then the checkout; a chunk of 0 raises ValueError |
| Lfs.Pull | kn_util/tools/lfs.py:56-66 | as written, every fetch takes 100 paths, whatever the chunk |
| Lfs.PullCoverage | kn_util/tools/lfs.py:61-63 | as written, path `i` is fetched exactly when `i mod chunk < 100` |
| Lfs.PullSkipsPaths | kn_util/tools/lfs.py:61-66 | 150 paths with a chunk of 200 fetch only the first 100 |
| Lfs.PullFixed | kn_util/tools/lfs.py:56-66 | the corrected pull takes one chunk of paths per fetch |
| Lfs.PullFixedFetchesAll | kn_util/tools/lfs.py:61-63 | the corrected fetch lists join back to the whole path list, in order, so every path is fetched |
| Lfs.NotDone.constructor | kn_util/tools/lfs.py:102-111 | the set of running downloads starts as given |
| Lfs.Wait | kn_util/tools/lfs.py:102-111 | `done` is exactly the finished downloads, and `not_done` loses exactly those |
| Lfs.WaitPartition | kn_util/tools/lfs.py:102-111 | finished and unfinished downloads split the set, and none left in `not_done` is finished |
| Callbacks.CaptureOutput.constructor | util/pl_utils/callbacks.py:6-8 | a new callback has captured nothing |
| Callbacks.CaptureOutput.Pairs | util/pl_utils/callbacks.py:22-32 | the captured pairs are batch `k` with output `k` |
| Callbacks.CaptureOutput.OnValidationEpochStart | util/pl_utils/callbacks.py:10-14 | both lists are emptied |
| Callbacks.CaptureOutput.OnTestEpochStart | util/pl_utils/callbacks.py:16-20 | both lists are emptied |
| Callbacks.CaptureOutput.OnValidationBatchEnd | util/pl_utils/callbacks.py:22-32 | the batch and the output are appended side by side, so the pairs gain exactly this pair |
| Callbacks.CaptureOutput.OnTestBatchEnd | util/pl_utils/callbacks.py:34-44 | as written, the batch is appended and then AttributeError is raised, so the lists stop lining up |
| Callbacks.CaptureOutput.OnTestBatchEndFixed | util/pl_utils/callbacks.py:34-44 | corrected: the batch and the output are appended side by side |
| Callbacks.TestEpochAsWritten | util/pl_utils/callbacks.py:16-44 | a test epoch of one batch raises and ends with one input and no output |
| Callbacks.TestEpochFixed | util/pl_utils/callbacks.py:16-44 | a corrected test epoch over any batches captures exactly their pairs, in order |

## Left out

- HTTP, redirects (`get_response_with_redirects`), the `httpx` transport's own retries, and the asynchronous concurrency of the shards. Each shard is modelled on its own, with a `Server` function standing in for the network. The shards touch disjoint files, so their order does not matter.
- Progress bars, log messages and printed output: they change no state the model tracks.
- Shell execution: `_async_run_cmd`, `run_cmd`, and the `cat … > out && rm …` merge of download.py:309. The axel and wget commands are modelled as the strings built.
- MergeShardFiles: does not model the `> shard && rm shard` clean-up of download.py:96, which is a shell command, so the model's disk keeps the shard files. That command is started through `asyncio.create_subprocess_shell` (download.py:135-136) and never waited for, so in the source a list naming one shard twice may copy it again in full or in part, or raise FileNotFoundError, depending on when the shell runs; the modelled shard lists never repeat a path (ShardPaths.ShardPathsDistinct).
- ShardFetch.RetryLoop: a response ends either with the whole body or with `httpx.NetworkError`, the only exception download.py:188 catches. Any other exception raised while streaming, such as `httpx.RemoteProtocolError` when the peer closes mid-body, would end the shard at once without a retry, leaving the partial bytes in the shard file; the model has no such outcome. (No timeout can occur, since the client is built with `timeout=None` at download.py:248.) The same holds for ShardFetch.RangeDownload. Also, `Files.Disk` has no directories, so the FileNotFoundError that `open(..., "wb")` and `open(out, "wb+")` raise in a missing directory (download.py:108, 165) is not modelled.
- ProgressStore.ReadChunkProgress: `num_shards` and `record_size` are parameters, because the class reads them as attributes it never defines.
- Downloader.ContentLength: accepts decimal digits surrounded by white space, where white space is Python's `str.isspace` set (`Text.IsSpace`). Python's `int()` also takes a sign, underscores and non-ASCII digits, which the model refuses.
- Lfs.Pull: models `pull` from its loop on, given the listed paths. From the command line, `main` registers only `--chunk` and `--include` for `pull` (lfs.py:336-345), so `pull` raises AttributeError on `args.exclude` at lfs.py:57 before the loop runs; the model does not capture that failure, and the fixed slice width is reached only through a direct call with a namespace that has `exclude`.
- The `io.BufferedRandom` output of download.py:226-227 and the `out=None` temporary-file branches of download_axel and download_wget (download.py:349-355, 380-385): these hand the work to the operating system.
- `SimpleDownloader` (download.py:388-440) and `get_headers`: outside the downloader core.
- `lfs_list_files`' own `git lfs ls-files` call and `splitlines`: the model starts from the output lines.
- `is_valid_file`, the `.downloaded` file and the process pool of `download_repo`: they are I/O and processes. The model keeps the pending filter, the URLs and the poll.
- Lfs.HubUrl: only the default Hugging Face template is modelled, not other `--template` values.
- Lfs.Wait: the `time.sleep(timeout)` before polling is left out, and whether a download is finished is a parameter (`ready`).
- Callbacks: the `trainer` and `pl_module` arguments and the batch and dataloader indices are unused by the hooks and left out of the signatures.

## Findings

| source | as written | input that shows it | evidently intended | confidence | as-written member | corrected member |
|---|---|---|---|---|---|---|
| kn_util/utils/download.py:115-120 | the count is written with its minimal byte length, but read back (line 105) as a full `record_size` slot | with 8-byte slots, writing 1 into a zeroed slot makes it read as 2^56 | encode on the full slot width | not executed | ProgressStore.ReadAfterWrite | ProgressStore.ReadAfterFixedWrite |
| util/pl_utils/callbacks.py:44 | `self.out.append(outputs)` names an attribute that does not exist | any test batch: AttributeError, after the batch was already appended | `self.outs.append(outputs)` | not executed | Callbacks.TestEpochAsWritten | Callbacks.TestEpochFixed |
| kn_util/tools/lfs.py:61-63 | each fetch takes `paths[idx : idx + 100]` whatever `--chunk` is | 150 paths with a chunk of 200 fetch only the first 100; this is reached only when `pull` is called with an argument namespace that has `exclude`, because from the command line `pull` first fails at lfs.py:57 (`--exclude` is not registered for `pull`, lfs.py:336-345) | `paths[idx : idx + args.chunk]` | not executed | Lfs.PullSkipsPaths | Lfs.PullFixedFetchesAll |
| kn_util/tools/lfs.py:52 | the path is the last space-separated word of the line | a file `a b.bin` is listed as `b.bin` | the text after the oid and the marker | not executed | Lfs.LsFilesPathWithSpace | Lfs.LsFilesPathFixedRoundTrip |

=== FILE: big_endian.dfy ===
/** Python's big-endian integer codec: `int.to_bytes(length, 'big')`,
    `int.from_bytes(data, 'big')`, and the minimal byte length the downloader
    computes as `(v.bit_length() + 7) // 8`. */
module BigEndian {
  import opened Common

  /** `2^k`. Its contract only keeps it positive; its laws are Pow2Monotone
      and Pow256IsPow2. */
  function Pow2(k: nat): (r: nat)
    ensures r >= 1
  {
    if k == 0 then 1 else 2 * Pow2(k - 1)
  }

  /** `256^k`, the number of values `k` bytes can hold. */
  function Pow256(k: nat): (r: nat)
    ensures r >= 1
  {
    if k == 0 then 1 else 256 * Pow256(k - 1)
  }

  /** `v.bit_length()`: the number of binary digits of `v`, 0 for 0. */
  function BitLength(v: nat): nat
  {
    if v == 0 then 0 else 1 + BitLength(v / 2)
  }

  /** `_get_byte_length(v)`: `(v.bit_length() + 7) // 8`. */
  function ByteLength(v: nat): nat
  {
    (BitLength(v) + 7) / 8
  }

  /** `v.to_bytes(len, 'big')` for a `v` that fits, most significant byte first.
      Python raises OverflowError when `v >= 256^len`; here the high-order bytes
      are dropped instead. Every caller passes a `v` that fits: the minimal
      length holds `v` (`ByteLengthIsMinimal`), 0 fits in any length, and the
      corrected progress write checks the bound before encoding. */
  function ToBytes(v: nat, len: nat): (r: seq<byte>)
    ensures |r| == len
  {
    if len == 0 then [] else ToBytes(v / 256, len - 1) + [v % 256]
  }

  /** `int.from_bytes(bs, 'big')`; the empty sequence reads as 0. */
  function FromBytes(bs: seq<byte>): nat
  {
    if bs == [] then 0 else FromBytes(bs[..|bs| - 1]) * 256 + bs[|bs| - 1]
  }

  /** The bit length brackets `v` between two powers of two. */
  lemma {:induction false} BitLengthBounds(v: nat)
    ensures v < Pow2(BitLength(v))
    ensures v > 0 ==> Pow2(BitLength(v) - 1) <= v
  {
    if v > 0 {
      BitLengthBounds(v / 2);
    }
  }

  lemma {:induction false} Pow2Monotone(a: nat, b: nat)
    requires a <= b
    ensures Pow2(a) <= Pow2(b)
    decreases b
  {
    if a < b {
      Pow2Monotone(a, b - 1);
    }
  }

  lemma {:induction false} Pow256IsPow2(k: nat)
    ensures Pow256(k) == Pow2(8 * k)
  {
    if k > 0 {
      Pow256IsPow2(k - 1);
      assert Pow2(8 * k) == 256 * Pow2(8 * (k - 1)) by {
        var m := 8 * (k - 1);
        assert 8 * k == m + 8;
        assert Pow2(m + 8) == 2 * Pow2(m + 7) == 4 * Pow2(m + 6) == 8 * Pow2(m + 5);
        assert Pow2(m + 5) == 2 * Pow2(m + 4) == 4 * Pow2(m + 3) == 8 * Pow2(m + 2);
        assert Pow2(m + 2) == 2 * Pow2(m + 1) == 4 * Pow2(m);
      }
    }
  }

  /** `(bit_length + 7) // 8` is the least number of bytes that holds `v`:
      `v` fits in that many bytes and, unless it is 0, not in one fewer. */
  lemma ByteLengthIsMinimal(v: nat)
    ensures v < Pow256(ByteLength(v))
    ensures v > 0 ==> ByteLength(v) >= 1 && Pow256(ByteLength(v) - 1) <= v
    ensures v == 0 ==> ByteLength(v) == 0
  {
    var b, n := BitLength(v), ByteLength(v);
    BitLengthBounds(v);
    Pow256IsPow2(n);
    Pow2Monotone(b, 8 * n);
    if v > 0 {
      Pow256IsPow2(n - 1);
      Pow2Monotone(8 * (n - 1), b - 1);
    }
  }

  /** Every byte string reads as a value below 256 to the power of its length. */
  lemma {:induction false} FromBytesBound(bs: seq<byte>)
    ensures FromBytes(bs) < Pow256(|bs|)
  {
    if bs != [] {
      FromBytesBound(bs[..|bs| - 1]);
    }
  }

  /** Decoding an encoding gives the value back when it fits in the length. */
  lemma {:induction false} FromToBytes(v: nat, len: nat)
    requires v < Pow256(len)
    ensures FromBytes(ToBytes(v, len)) == v
  {
    if len > 0 {
      QuotientBelow(v, Pow256(len - 1));
      FromToBytes(v / 256, len - 1);
      FromToBytesStep(v, len);
    }
  }

  /** One more byte: the encoding of `v` decodes to `v` when that of `v / 256`
      decodes to `v / 256`. */
  lemma FromToBytesStep(v: nat, len: nat)
    requires len > 0
    requires FromBytes(ToBytes(v / 256, len - 1)) == v / 256
    ensures FromBytes(ToBytes(v, len)) == v
  {
    var r := ToBytes(v, len);
    assert r[..|r| - 1] == ToBytes(v / 256, len - 1);
    assert r[|r| - 1] == v % 256;
  }

  /** A value below `256 * p` has a quotient by 256 below `p`. */
  lemma QuotientBelow(v: nat, p: nat)
    requires v < 256 * p
    ensures v / 256 < p
    ensures v == v / 256 * 256 + v % 256
  {
    var q := v / 256;
    assert q * 256 <= v;
    assert (q - p) * 256 == q * 256 - 256 * p;
  }

  /** Reading a concatenation: the first part is shifted by the length of the second. */
  lemma {:induction false} FromBytesAppend(a: seq<byte>, b: seq<byte>)
    ensures FromBytes(a + b) == FromBytes(a) * Pow256(|b|) + FromBytes(b)
    decreases |b|
  {
    if b == [] {
      assert a + b == a;
    } else {
      var b' := b[..|b| - 1];
      assert (a + b)[..|a + b| - 1] == a + b';
      FromBytesAppend(a, b');
      calc {
        FromBytes(a + b);
        FromBytes(a + b') * 256 + b[|b| - 1];
        (FromBytes(a) * Pow256(|b'|) + FromBytes(b')) * 256 + b[|b| - 1];
        FromBytes(a) * (Pow256(|b'|) * 256) + (FromBytes(b') * 256 + b[|b| - 1]);
        FromBytes(a) * Pow256(|b|) + FromBytes(b);
      }
    }
  }
}

=== FILE: callbacks.dfy ===
/**
 * The `CaptureOutput` training callback: it records every batch a
 * validation or test loop feeds to the model (`ins`) beside the output the
 * model produced for it (`outs`), and starts afresh at each epoch.  The
 * trainer and the module handed to each hook are not used by it and are
 * left out of the signatures.
 */
module Callbacks {

  /** How a hook ends: normally, or with Python's AttributeError. */
  datatype Outcome = Returned | AttributeError

  /** Pairs up two sequences of the same length, index by index. */
  function Zip<X, Y>(xs: seq<X>, ys: seq<Y>): (r: seq<(X, Y)>)
    requires |xs| == |ys|
    ensures |r| == |xs|
    ensures forall k :: 0 <= k < |r| ==> r[k] == (xs[k], ys[k])
  {
    if xs == [] then [] else [(xs[0], ys[0])] + Zip(xs[1..], ys[1..])
  }

  class CaptureOutput<B, O> {
    var ins: seq<B>
    var outs: seq<O>

    /** The k-th captured batch belongs with the k-th captured output. */
    predicate Aligned()
      reads this
    {
      |ins| == |outs|
    }

    /** The captured (batch, output) pairs, in the order the loop ran. */
    function Pairs(): (r: seq<(B, O)>)
      reads this
      requires Aligned()
      ensures |r| == |ins|
      ensures forall k :: 0 <= k < |r| ==> r[k] == (ins[k], outs[k])
    {
      Zip(ins, outs)
    }

    constructor()
      ensures ins == [] && outs == []
      ensures Aligned()
    {
      ins := [];
      outs := [];
    }

    method OnValidationEpochStart()
      modifies this
      ensures ins == [] && outs == []
      ensures Aligned() && Pairs() == []
    {
      ins := [];
      outs := [];
    }

    method OnTestEpochStart()
      modifies this
      ensures ins == [] && outs == []
      ensures Aligned() && Pairs() == []
    {
      ins := [];
      outs := [];
    }

    /** Records one validation batch and its output side by side. */
    method OnValidationBatchEnd(outputs: O, batch: B)
      modifies this
      ensures ins == old(ins) + [batch]
      ensures outs == old(outs) + [outputs]
      ensures old(Aligned()) ==> Aligned() && Pairs() == old(Pairs()) + [(batch, outputs)]
    {
      ins := ins + [batch];
      outs := outs + [outputs];
    }

    /**
     * The test hook as written: the batch is appended, then the output is
     * appended to an attribute the object does not have, so the hook raises
     * AttributeError with the batch recorded and the output not.
     */
    method OnTestBatchEnd(outputs: O, batch: B) returns (r: Outcome)
      modifies this
      ensures r == AttributeError
      ensures ins == old(ins) + [batch]
      ensures outs == old(outs)
      ensures old(Aligned()) ==> !Aligned()
    {
      ins := ins + [batch];
      r := AttributeError;
    }

    /** The test hook as evidently intended: the same as the validation hook. */
    method OnTestBatchEndFixed(outputs: O, batch: B) returns (r: Outcome)
      modifies this
      ensures r == Returned
      ensures ins == old(ins) + [batch]
      ensures outs == old(outs) + [outputs]
      ensures old(Aligned()) ==> Aligned() && Pairs() == old(Pairs()) + [(batch, outputs)]
    {
      ins := ins + [batch];
      outs := outs + [outputs];
      r := Returned;
    }
  }

  /**
   * A test epoch of one batch with the hooks as written: the callback ends
   * with one more input than outputs.
   */
  method TestEpochAsWritten<B, O>(batch: B, outputs: O) returns (r: Outcome, ins: seq<B>, outs: seq<O>)
    ensures r == AttributeError
    ensures ins == [batch] && outs == []
    ensures |ins| == |outs| + 1
  {
    var c := new CaptureOutput<B, O>();
    c.OnTestEpochStart();
    r := c.OnTestBatchEnd(outputs, batch);
    ins, outs := c.ins, c.outs;
  }

  /**
   * Any run of the intended test hooks over a sequence of batches and their
   * outputs captures exactly those pairs.
   */
  method TestEpochFixed<B, O>(batches: seq<B>, outputs: seq<O>) returns (pairs: seq<(B, O)>)
    requires |batches| == |outputs|
    ensures |pairs| == |batches|
    ensures forall k :: 0 <= k < |pairs| ==> pairs[k] == (batches[k], outputs[k])
  {
    var c := new CaptureOutput<B, O>();
    c.OnTestEpochStart();
    var i := 0;
    while i < |batches|
      invariant 0 <= i <= |batches|
      invariant c.ins == batches[..i] && c.outs == outputs[..i]
    {
      var _ := c.OnTestBatchEndFixed(outputs[i], batches[i]);
      i := i + 1;
    }
    assert batches[..i] == batches && outputs[..i] == outputs;
    pairs := c.Pairs();
  }
}

=== FILE: common.dfy ===
/** Shared vocabulary: bytes, optional values and results, and the few sequence
    operations (concatenation of a list of buffers, Python slicing, mapping) that
    several parts of the downloader and the LFS tool use. */
module Common {

  /** One octet of a file or of a network body. */
  type byte = b: int | 0 <= b < 256

  datatype Option<T> = None | Some(value: T)

  datatype Result<T, E> = Ok(value: T) | Err(error: E)

  /** Python truthiness of an optional string: `None` and `""` are false. */
  predicate Truthy(s: Option<string>)
  {
    s.Some? && s.value != ""
  }

  function Min(a: int, b: int): int { if a <= b then a else b }

  function Max(a: int, b: int): int { if a <= b then b else a }

  /** A run of `n` zero bytes. */
  function Zeros(n: nat): (r: seq<byte>)
    ensures |r| == n
    ensures forall i :: 0 <= i < n ==> r[i] == 0
  {
    seq(n, _ => 0)
  }

  /** Concatenation of a list of buffers, first to last (`b"".join(parts)`). */
  function Flatten<T>(parts: seq<seq<T>>): seq<T>
  {
    if parts == [] then [] else Flatten(parts[..|parts| - 1]) + parts[|parts| - 1]
  }

  /** Concatenation regroups freely. */
  lemma AppendAssoc<T>(a: seq<T>, b: seq<T>, c: seq<T>)
    ensures (a + b) + c == a + (b + c)
  {
  }

  /** Flattening distributes over concatenation of the lists of buffers. */
  lemma {:induction false} FlattenAppend<T>(a: seq<seq<T>>, b: seq<seq<T>>)
    ensures Flatten(a + b) == Flatten(a) + Flatten(b)
    decreases |b|
  {
    if b == [] {
      assert a + b == a;
    } else {
      var b' := b[..|b| - 1];
      assert (a + b)[..|a + b| - 1] == a + b';
      FlattenAppend(a, b');
    }
  }

  /** Flattening a list that starts with `x` puts `x` first. */
  lemma FlattenCons<T>(x: seq<T>, rest: seq<seq<T>>)
    ensures Flatten([x] + rest) == x + Flatten(rest)
  {
    FlattenAppend([x], rest);
    assert [x][..0] == [];
  }

  /** Python's `s[i:j]` for non-negative bounds: both ends are clamped to the length. */
  function PySlice<T>(s: seq<T>, i: nat, j: nat): (r: seq<T>)
    ensures i <= j <= |s| ==> r == s[i..j]
    ensures |r| == Max(0, Min(j, |s|) - Min(i, |s|))
  {
    var lo := Min(i, |s|);
    var hi := Max(lo, Min(j, |s|));
    s[lo..hi]
  }

  /** `[f(x) for x in s]`. */
  function MapSeq<A, B>(f: A -> B, s: seq<A>): (r: seq<B>)
    ensures |r| == |s|
    ensures forall k :: 0 <= k < |s| ==> r[k] == f(s[k])
  {
    if s == [] then [] else [f(s[0])] + MapSeq(f, s[1..])
  }

  lemma MapSeqCons<A, B>(f: A -> B, x: A, s: seq<A>)
    ensures MapSeq(f, [x] + s) == [f(x)] + MapSeq(f, s)
  {
    assert ([x] + s)[1..] == s;
  }
}

=== FILE: downloader.dfy ===
/** The front of the sharded downloader (`_async_sharded_download`): the "auto"
    values of `out` and `proxy`, the check that the server serves byte ranges,
    the file size from `Content-Length`, the choice of ranges, and the
    in-memory result that joins the shard buffers. Also the command lines the
    `axel` and `wget` downloaders build. */
module Downloader {
  import opened Common
  import opened Text
  import PosixPath
  import ShardPaths
  import RangePlanner
  import ShardFetch
  import Merge

  /** Response or request header fields in order; a name may repeat. */
  type Headers = seq<(string, string)>

  /** The proxy `"auto"` stands for. */
  const AutoProxy: string := "127.0.0.1:8091"

  // ---------------------------------------------------------------- "auto"

  /** `out == "auto"` becomes the URL's base name; any other value is kept. */
  function ResolveOut(out: Option<string>, url: string): (r: Option<string>)
    ensures out != Some("auto") ==> r == out
    ensures out == Some("auto") ==> r.Some? && r.value == PosixPath.Basename(url) && '/' !in r.value
  {
    ShardPaths.OutputPathIsBasename(url);
    if out == Some("auto") then Some(ShardPaths.OutputPath(url)) else out
  }

  /** `proxy == "auto"` becomes the local proxy; any other value is kept. */
  function ResolveProxy(proxy: Option<string>): (r: Option<string>)
    ensures r != Some("auto")
    ensures proxy != Some("auto") ==> r == proxy
  {
    if proxy == Some("auto") then Some(AutoProxy) else proxy
  }

  /** The proxy URL handed to the client: `http://` and the proxy, or none. */
  function ProxyUrl(proxy: Option<string>): (r: Option<string>)
    ensures r.Some? <==> Truthy(proxy)
    ensures r.Some? ==> StartsWith(r.value, "http://") && r.value[7..] == proxy.value
  {
    if Truthy(proxy) then Some("http://" + proxy.value) else None
  }

  /** Resolving a second time changes nothing. */
  lemma ResolveIdempotent(out: Option<string>, proxy: Option<string>, url: string)
    ensures ResolveOut(ResolveOut(out, url), url) == ResolveOut(out, url)
    ensures ResolveProxy(ResolveProxy(proxy)) == ResolveProxy(proxy)
  {
  }

  /** With `proxy="auto"` the client goes through `http://127.0.0.1:8091`, and
      with no proxy or an empty one it connects directly. */
  lemma AutoProxyUrl()
    ensures ProxyUrl(ResolveProxy(Some("auto"))) == Some("http://127.0.0.1:8091")
    ensures ProxyUrl(ResolveProxy(None)) == None
    ensures ProxyUrl(ResolveProxy(Some(""))) == None
  {
    assert "http://" + AutoProxy == "http://127.0.0.1:8091";
  }

  // ---------------------------------------------------------------- header lookup

  /** The values of the fields called `name`, compared without regard to ASCII
      case, in order. */
  function Values(headers: Headers, name: string): (vs: seq<string>)
    ensures |vs| <= |headers|
  {
    if headers == [] then []
    else
      var rest := Values(headers[1..], name);
      if Lower(headers[0].0) == Lower(name) then [headers[0].1] + rest else rest
  }

  /** `headers.get(name)`: the values of a repeated field joined by `", "`. */
  function HeaderGet(headers: Headers, name: string): Option<string>
  {
    var vs := Values(headers, name);
    if vs == [] then None else Some(JoinWith(vs, ", "))
  }

  /** The gate of line 237: ranged download only when `Accept-Ranges` reads `bytes`. */
  predicate AcceptsRanges(headers: Headers)
  {
    HeaderGet(headers, "Accept-Ranges") == Some("bytes")
  }

  /** A join of two or more values has a comma right after the first value. */
  lemma JoinHasComma(vs: seq<string>)
    requires |vs| >= 2
    ensures |JoinWith(vs, ", ")| > |vs[0]| && JoinWith(vs, ", ")[|vs[0]|] == ','
  {
  }

  /** The server supports ranges exactly when it sends one `Accept-Ranges` field,
      under any case of its name, whose value is `bytes`. */
  lemma AcceptRangesGate(headers: Headers)
    ensures AcceptsRanges(headers) <==> Values(headers, "Accept-Ranges") == ["bytes"]
  {
    var vs := Values(headers, "Accept-Ranges");
    if |vs| >= 2 {
      JoinHasComma(vs);
      var j := JoinWith(vs, ", ");
      assert ',' in j;
      assert ',' !in "bytes";
    }
  }

  lemma AcceptRangesExamples()
    ensures AcceptsRanges([("accept-ranges", "bytes"), ("Content-Length", "10")])
    ensures !AcceptsRanges([("Accept-Ranges", "none")])
    ensures !AcceptsRanges([("Content-Length", "10")])
    ensures !AcceptsRanges([("Accept-Ranges", "bytes"), ("ACCEPT-RANGES", "bytes")])
  {
    AcceptRangesGate([("Accept-Ranges", "bytes"), ("ACCEPT-RANGES", "bytes")]);
    assert Lower("accept-ranges") == Lower("Accept-Ranges");
    assert Lower("ACCEPT-RANGES") == Lower("Accept-Ranges");
    assert Lower("Content-Length") != Lower("Accept-Ranges");
  }

  // ---------------------------------------------------------------- file size

  datatype StartError =
    | KeyError                                  // no Content-Length field
    | ValueError                                // a Content-Length that int() refuses
    | PlanFailed(error: RangePlanner.PlanError) // the ranges cannot be computed

  /** `int(headers["Content-Length"])` for a decimal number with surrounding
      white space. */
  function ContentLength(headers: Headers): Result<nat, StartError>
  {
    match HeaderGet(headers, "Content-Length")
    case None => Err(KeyError)
    case Some(v) =>
      var t := Strip(v);
      if t != [] && AllDigits(t) then Ok(ParseDigits(t)) else Err(ValueError)
  }

  /** A single `Content-Length: n` gives back `n`. */
  lemma ContentLengthRoundTrip(headers: Headers, n: nat)
    requires Values(headers, "Content-Length") == [NatToString(n)]
    ensures ContentLength(headers) == Ok(n)
  {
    var s := NatToString(n);
    assert LStrip(s) == s;
    assert RStrip(s) == s;
    ParseFormatted(n);
  }

  /** A repeated `Content-Length` field is refused, even when both agree. */
  lemma RepeatedContentLength(headers: Headers)
    requires |Values(headers, "Content-Length")| >= 2
    ensures ContentLength(headers) == Err(ValueError)
  {
    var vs := Values(headers, "Content-Length");
    var j := JoinWith(vs, ", ");
    JoinHasComma(vs);
    var t := Strip(j);
    if t != [] && AllDigits(t) {
      StripKeepsComma(j, |vs[0]|);
      assert false;
    }
  }

  /** Stripping white space keeps a comma of the text. */
  lemma StripKeepsComma(s: string, i: nat)
    requires i < |s| && s[i] == ','
    ensures ',' in Strip(s)
  {
    var l := LStrip(s);
    var off := |s| - |l|;
    LStripKeeps(s, i);
    assert l[i - off] == ',';
    RStripKeeps(l, i - off);
  }

  lemma {:induction false} LStripKeeps(s: string, i: nat)
    requires i < |s| && !IsSpace(s[i])
    ensures |s| - |LStrip(s)| <= i
  {
    if s != [] && IsSpace(s[0]) {
      LStripKeeps(s[1..], i - 1);
    }
  }

  lemma {:induction false} RStripKeeps(s: string, i: nat)
    requires i < |s| && !IsSpace(s[i])
    ensures i < |RStrip(s)| && RStrip(s)[i] == s[i]
  {
    if s != [] && IsSpace(s[|s| - 1]) {
      RStripKeeps(s[..|s| - 1], i);
    }
  }

  // ---------------------------------------------------------------- start

  datatype Start =
    | Direct                                                   // no range support: nothing is downloaded
    | Failed(error: StartError)
    | Sharded(filesize: nat, ranges: seq<RangePlanner.ShardRange>)

  /** What the downloader does once the response headers are in. */
  function StartDownload(headers: Headers, numShards: int): Start
  {
    if !AcceptsRanges(headers) then Direct
    else match ContentLength(headers)
      case Err(e) => Failed(e)
      case Ok(n) =>
        match RangePlanner.Plan(n, numShards)
        case Err(e) => Failed(PlanFailed(e))
        case Ok(rs) => Sharded(n, rs)
  }

  /** The download is split exactly when the server accepts ranges, reports a
      size, and there are between 1 and that many shards; the ranges then cover
      the whole file in order, at least one per shard. */
  lemma StartDownloadOutcome(headers: Headers, numShards: int)
    ensures StartDownload(headers, numShards) == Direct <==> !AcceptsRanges(headers)
    ensures StartDownload(headers, numShards).Sharded? <==>
              && AcceptsRanges(headers)
              && ContentLength(headers).Ok?
              && 0 < numShards <= ContentLength(headers).value
    ensures var s := StartDownload(headers, numShards);
            s.Sharded? ==>
              && ContentLength(headers) == Ok(s.filesize)
              && RangePlanner.Partitions(s.ranges, 0, s.filesize)
              && |s.ranges| >= numShards
  {
    if AcceptsRanges(headers) && ContentLength(headers).Ok? {
      var n := ContentLength(headers).value;
      RangePlanner.PlanSucceeds(n, numShards);
      if RangePlanner.Plan(n, numShards).Ok? {
        RangePlanner.PlanShape(n, numShards);
        RangePlanner.PlanCountAtLeastShards(n, numShards);
      }
    }
  }

  // ---------------------------------------------------------------- in-memory result

  /** The buffers the shard downloads return, in range order. */
  function ShardBuffers(servers: seq<ShardFetch.Server>, rs: seq<RangePlanner.ShardRange>,
                        maxRetries: int): (bs: seq<seq<byte>>)
    requires |servers| == |rs|
    requires forall k :: 0 <= k < |rs| ==> 0 <= rs[k].start
    ensures |bs| == |rs|
  {
    seq(|rs|, k requires 0 <= k < |rs| => ShardFetch.Replay(servers[k], rs[k].start, 0, 0, maxRetries).got)
  }

  /** When every shard is served honestly and none gives up, the joined buffers
      are the file. */
  lemma BuffersFromHonestServers(body: seq<byte>, rs: seq<RangePlanner.ShardRange>,
                                 servers: seq<ShardFetch.Server>, maxRetries: int)
    requires RangePlanner.Partitions(rs, 0, |body|)
    requires |servers| == |rs| && maxRetries >= 1
    requires forall k :: 0 <= k < |rs| ==>
               && 0 <= rs[k].start <= rs[k].end
               && ShardFetch.Honest(servers[k], body, rs[k].end)
               && !ShardFetch.Replay(servers[k], rs[k].start, 0, 0, maxRetries).raised
    ensures Flatten(ShardBuffers(servers, rs, maxRetries)) == body
  {
    RangePlanner.PartitionBounds(rs, 0, |body|);
    var bs := ShardBuffers(servers, rs, maxRetries);
    forall k | 0 <= k < |rs|
      ensures bs[k] == body[rs[k].start..rs[k].end + 1]
    {
      ShardFetch.ResumeCorrect(servers[k], body, rs[k].start, rs[k].end, [], maxRetries);
      assert [] + bs[k] == bs[k];
    }
    Merge.BuffersRestoreBody(body, rs, bs);
  }

  /** End to end: a server that accepts ranges and reports the true size, and
      serves every shard honestly, yields the file as the in-memory result. */
  lemma BufferDownloadRestoresBody(body: seq<byte>, headers: Headers, numShards: int,
                                   servers: seq<ShardFetch.Server>, maxRetries: int)
    requires AcceptsRanges(headers)
    requires ContentLength(headers) == Ok(|body|)
    requires 0 < numShards <= |body|
    requires var rs := RangePlanner.Plan(|body|, numShards);
             rs.Ok? && |servers| == |rs.value| && maxRetries >= 1
             && (forall k :: 0 <= k < |rs.value| ==>
                   && 0 <= rs.value[k].start <= rs.value[k].end
                   && ShardFetch.Honest(servers[k], body, rs.value[k].end)
                   && !ShardFetch.Replay(servers[k], rs.value[k].start, 0, 0, maxRetries).raised)
    ensures StartDownload(headers, numShards).Sharded?
    ensures Flatten(ShardBuffers(servers, StartDownload(headers, numShards).ranges, maxRetries)) == body
  {
    StartDownloadOutcome(headers, numShards);
    var rs := RangePlanner.Plan(|body|, numShards).value;
    assert StartDownload(headers, numShards).ranges == rs;
    BuffersFromHonestServers(body, rs, servers, maxRetries);
  }

  // ---------------------------------------------------------------- command lines

  /** A prefix of the first part is a prefix of the whole. */
  lemma StartsWithConcat(x: string, y: string, p: string)
    requires StartsWith(x, p)
    ensures StartsWith(x + y, p)
  {
    assert (x + y)[..|p|] == x[..|p|];
  }

  /** The middle part of a concatenation occurs in it. */
  lemma OccursIn(x: string, p: string, y: string)
    ensures Occurs(x + p + y, p)
  {
    var s := x + p + y;
    assert s[|x|..][..|p|] == p;
    assert StartsWith(s[|x|..], p);
  }

  /** ` --header "k:v"` for each field, in order. */
  function HeaderArgs(headers: Headers): string
  {
    if headers == [] then ""
    else HeaderArg(headers[0]) + HeaderArgs(headers[1..])
  }

  function HeaderArg(h: (string, string)): string
  {
    " --header \"" + (h.0 + ":" + h.1 + "\"")
  }

  /** The header flags of two lists are the flags of each, in order. */
  lemma {:induction false} HeaderArgsAppend(a: Headers, b: Headers)
    ensures HeaderArgs(a + b) == HeaderArgs(a) + HeaderArgs(b)
  {
    if a != [] {
      assert (a + b)[1..] == a[1..] + b;
      HeaderArgsAppend(a[1..], b);
    } else {
      assert a + b == b;
    }
  }

  /** The connection count is passed when it is neither `None` nor 0. */
  function ConnectionArg(numShards: Option<int>): string
  {
    if numShards.Some? && numShards.value != 0 then " --num-connections " + IntToString(numShards.value) else ""
  }

  function AxelProxyArg(proxy: Option<string>): string
  {
    if Truthy(proxy) then " --proxy " + proxy.value else ""
  }

  function AxelTail(retries: int, timeout: int): string
  {
    " --max-redirect " + (IntToString(retries) + " --timeout " + IntToString(timeout))
  }

  /** `axel_args`, built from the already resolved proxy. */
  function AxelArgs(proxy: Option<string>, headers: Headers, numShards: Option<int>,
                    retries: int, timeout: int): string
  {
    AxelProxyArg(proxy) + (HeaderArgs(headers) + (ConnectionArg(numShards) + AxelTail(retries, timeout)))
  }

  /** The text Python's f-string gives an optional output name. */
  function OutText(out: Option<string>): string
  {
    if out.Some? then out.value else "None"
  }

  /** The `axel` command of `download_axel`. */
  function AxelCommand(url: string, out: Option<string>, headers: Headers, proxy: Option<string>,
                       numShards: Option<int>, timeout: int, retries: int): string
  {
    "axel " + AxelArgs(ResolveProxy(proxy), headers, numShards, retries, timeout)
    + " '" + url + "' -o '" + OutText(ResolveOut(out, url)) + "'"
  }

  function WgetProxyArg(proxy: Option<string>): string
  {
    if Truthy(proxy) then " --proxy=on --proxy http://" + proxy.value else ""
  }

  function WgetLimits(retries: int, timeout: int): string
  {
    " --tries " + (IntToString(retries) + " --timeout " + IntToString(timeout))
  }

  const WgetFixed: string := " --no-check-certificate --continue"

  /** `wget_args`, built from the already resolved proxy. */
  function WgetArgs(proxy: Option<string>, headers: Headers, retries: int, timeout: int): string
  {
    WgetProxyArg(proxy) + WgetLimits(retries, timeout) + WgetFixed + HeaderArgs(headers)
  }

  /** The `wget` command of `download_wget` when an output name is given. */
  function WgetCommand(url: string, out: string, headers: Headers, proxy: Option<string>,
                       timeout: int, retries: int): string
  {
    "wget " + WgetArgs(ResolveProxy(proxy), headers, retries, timeout)
    + " '" + url + "' -O '" + OutText(ResolveOut(Some(out), url)) + "'"
  }

  /** Without a proxy the axel arguments open with a header, connection or
      redirect flag. */
  lemma AxelRestStart(headers: Headers, numShards: Option<int>, retries: int, timeout: int)
    ensures var rest := HeaderArgs(headers) + (ConnectionArg(numShards) + AxelTail(retries, timeout));
            StartsWith(rest, " --h") || StartsWith(rest, " --n") || StartsWith(rest, " --m")
  {
    var h, c, t := HeaderArgs(headers), ConnectionArg(numShards), AxelTail(retries, timeout);
    StartsWithConcat(" --max-redirect ", IntToString(retries) + " --timeout " + IntToString(timeout), " --m");
    if c != [] {
      StartsWithConcat(" --num-connections ", IntToString(numShards.value), " --n");
      StartsWithConcat(c, t, " --n");
    } else {
      assert c + t == t;
    }
    if h != [] {
      StartsWithConcat(" --header \"", headers[0].0 + ":" + headers[0].1 + "\"", " --h");
      StartsWithConcat(HeaderArg(headers[0]), HeaderArgs(headers[1..]), " --h");
      StartsWithConcat(h, c + t, " --h");
    } else {
      assert h + (c + t) == c + t;
    }
  }

  predicate EndsWith(s: string, t: string)
  {
    |t| <= |s| && s[|s| - |t|..] == t
  }

  /** A suffix of the last part is a suffix of the whole. */
  lemma EndsWithConcat(x: string, y: string, t: string)
    requires EndsWith(y, t)
    ensures EndsWith(x + y, t)
  {
    assert (x + y)[|x + y| - |t|..] == y[|y| - |t|..];
  }

  lemma NotProxyFlag(s: string)
    requires StartsWith(s, " --h") || StartsWith(s, " --n") || StartsWith(s, " --m")
    ensures !StartsWith(s, " --proxy ")
  {
    assert s[3] == s[..4][3];
  }

  /** axel is told about a proxy exactly when the resolved proxy is truthy, and
      the arguments always end with the redirect limit and the timeout. */
  lemma AxelArgsShape(proxy: Option<string>, headers: Headers, numShards: Option<int>,
                      retries: int, timeout: int)
    ensures var args := AxelArgs(proxy, headers, numShards, retries, timeout);
            && (StartsWith(args, " --proxy ") <==> Truthy(proxy))
            && EndsWith(args, AxelTail(retries, timeout))
  {
    var p, h, c, t := AxelProxyArg(proxy), HeaderArgs(headers), ConnectionArg(numShards), AxelTail(retries, timeout);
    var args := AxelArgs(proxy, headers, numShards, retries, timeout);
    if Truthy(proxy) {
      StartsWithConcat(" --proxy ", proxy.value, " --proxy ");
      StartsWithConcat(p, h + (c + t), " --proxy ");
    } else {
      assert args == h + (c + t);
      AxelRestStart(headers, numShards, retries, timeout);
      NotProxyFlag(args);
    }
    assert EndsWith(t, t);
    EndsWithConcat(c, t, t);
    EndsWithConcat(h, c + t, t);
    EndsWithConcat(p, h + (c + t), t);
  }

  /** wget is told about a proxy exactly when the resolved proxy is truthy, and
      always resumes a partial file and skips certificate checks. */
  lemma WgetArgsShape(proxy: Option<string>, headers: Headers, retries: int, timeout: int)
    ensures var args := WgetArgs(proxy, headers, retries, timeout);
            && (StartsWith(args, " --proxy=on ") <==> Truthy(proxy))
            && (!Truthy(proxy) ==> StartsWith(args, " --tries "))
            && Occurs(args, WgetFixed)
  {
    var p, l, h := WgetProxyArg(proxy), WgetLimits(retries, timeout), HeaderArgs(headers);
    var args := WgetArgs(proxy, headers, retries, timeout);
    OccursIn(p + l, WgetFixed, h);
    if Truthy(proxy) {
      StartsWithConcat(" --proxy=on --proxy http://", proxy.value, " --proxy=on ");
      StartsWithConcat(p, l, " --proxy=on ");
      StartsWithConcat(p + l, WgetFixed, " --proxy=on ");
      StartsWithConcat(p + l + WgetFixed, h, " --proxy=on ");
    } else {
      assert p + l == l;
      StartsWithConcat(" --tries ", IntToString(retries) + " --timeout " + IntToString(timeout), " --tries ");
      StartsWithConcat(l, WgetFixed, " --tries ");
      StartsWithConcat(l + WgetFixed, h, " --tries ");
      assert args[3] != " --proxy=on "[3];
    }
  }
}

=== FILE: files.dfy ===
/** The file system the downloader reads and writes, as one mutable map from
    path to contents, and what a positioned write does to a file. */
module Files {
  import opened Common

  /** The files on disk, by path. */
  class Disk {
    var files: map<string, seq<byte>>

    constructor (initial: map<string, seq<byte>>)
      ensures files == initial
    {
      files := initial;
    }
  }

  /** A file holding `data` after `f.seek(pos); f.write(w)`: the bytes at
      `[pos, pos + |w|)` are replaced by `w`, a gap between the old end and `pos`
      reads as zeros, and an empty write changes nothing. */
  function PositionalWrite(data: seq<byte>, pos: nat, w: seq<byte>): (r: seq<byte>)
    ensures w == [] ==> r == data
    ensures w != [] ==> |r| == Max(|data|, pos + |w|)
    ensures forall i :: 0 <= i < |r| ==>
              r[i] == if pos <= i < pos + |w| then w[i - pos] else if i < |data| then data[i] else 0
  {
    if w == [] then data
    else if pos <= |data| then data[..pos] + w + data[Min(pos + |w|, |data|)..]
    else data + Zeros(pos - |data|) + w
  }

  /** Two writes, the second starting where the first ended, are one write of
      both pieces: a chunked copy writes the same bytes as a single write. */
  lemma PositionalWriteCompose(data: seq<byte>, pos: nat, a: seq<byte>, b: seq<byte>)
    ensures PositionalWrite(PositionalWrite(data, pos, a), pos + |a|, b) == PositionalWrite(data, pos, a + b)
  {
    var lhs := PositionalWrite(PositionalWrite(data, pos, a), pos + |a|, b);
    var rhs := PositionalWrite(data, pos, a + b);
    if a == [] {
      assert a + b == b;
    } else if b == [] {
      assert a + b == a;
    } else {
      assert |lhs| == |rhs|;
      forall i | 0 <= i < |lhs| ensures lhs[i] == rhs[i] {
        if pos <= i < pos + |a| {
          assert (a + b)[i - pos] == a[i - pos];
        } else if pos + |a| <= i < pos + |a| + |b| {
          assert (a + b)[i - pos] == b[i - pos - |a|];
        }
      }
    }
  }

  /** Writing a file twice leaves the second contents. */
  lemma UpdateTwice(m: map<string, seq<byte>>, k: string, x: seq<byte>, y: seq<byte>)
    ensures m[k := x][k := y] == m[k := y]
  {
  }

  /** Writing at the end of a file appends. */
  lemma PositionalWriteAtEnd(data: seq<byte>, w: seq<byte>)
    ensures PositionalWrite(data, |data|, w) == data + w
  {
  }
}

=== FILE: lfs.dfy ===
/** The pure helpers and the two small loops of the Git LFS tool: reading the
    organisation and repository out of a Hugging Face URL, reading paths out
    of `git lfs ls-files`, batching file lists, the pending files and their
    download URLs, the upload target, the proxy choice, the `pull` fetch lists
    and the done/not-done split of the download pool. */
module Lfs {
  import opened Common
  import opened Text
  import PyRange

  datatype LfsError =
    | IndexError   // a list index out of range
    | ValueError   // unpacking too few values, or a `range` step of 0

  // ---------------------------------------------------------------- repository URL

  /** `[_ for _ in parts if _ != ""]`. */
  function NonEmpty(parts: seq<string>): (r: seq<string>)
    ensures forall k :: 0 <= k < |r| ==> r[k] != ""
  {
    if parts == [] then []
    else if parts[|parts| - 1] == "" then NonEmpty(parts[..|parts| - 1])
    else NonEmpty(parts[..|parts| - 1]) + [parts[|parts| - 1]]
  }

  lemma {:induction false} NonEmptyAppend(a: seq<string>, b: seq<string>)
    ensures NonEmpty(a + b) == NonEmpty(a) + NonEmpty(b)
    decreases |b|
  {
    if b == [] {
      assert a + b == a;
    } else {
      var b' := b[..|b| - 1];
      assert (a + b)[..|a + b| - 1] == a + b';
      NonEmptyAppend(a, b');
    }
  }

  /** `_parse_repo_url(url)`: the last two non-empty components, the first of
      them prefixed with `datasets/` when the component before is `datasets`. */
  function ParseRepoUrl(url: string): Result<(string, string), LfsError>
  {
    var items := NonEmpty(Split(url, '/'));
    var n := |items|;
    if n < 2 then Err(ValueError)
    else if n < 3 then Err(IndexError)
    else if items[n - 3] == "datasets" then Ok(("datasets/" + items[n - 2], items[n - 1]))
    else Ok((items[n - 2], items[n - 1]))
  }

  /** The URL is read exactly when it has three non-empty components; the
      repository is one component and the organisation is one component,
      possibly under `datasets/`. */
  lemma ParseRepoUrlShape(url: string)
    ensures var n := |NonEmpty(Split(url, '/'))|;
            && (ParseRepoUrl(url).Ok? <==> n >= 3)
            && (n < 2 ==> ParseRepoUrl(url) == Err(ValueError))
            && (n == 2 ==> ParseRepoUrl(url) == Err(IndexError))
    ensures ParseRepoUrl(url).Ok? ==>
              var (org, repo) := ParseRepoUrl(url).value;
              && repo != "" && '/' !in repo
              && (org[..Min(9, |org|)] == "datasets/" || '/' !in org)
  {
    var parts := Split(url, '/');
    var items := NonEmpty(parts);
    if |items| >= 3 {
      NonEmptyFrom(parts, |items| - 1);
      NonEmptyFrom(parts, |items| - 2);
    }
  }

  /** Every kept component is one of the split's parts. */
  lemma {:induction false} NonEmptyFrom(parts: seq<string>, k: nat)
    requires k < |NonEmpty(parts)|
    ensures NonEmpty(parts)[k] in parts
  {
    var last := parts[|parts| - 1];
    var init := parts[..|parts| - 1];
    if k < |NonEmpty(init)| {
      NonEmptyFrom(init, k);
      assert init[..] <= parts;
    }
  }

  lemma SplitOne(s: string)
    requires s != "" && '/' !in s
    ensures NonEmpty(Split(s, '/')) == [s]
  {
    SplitNoSeparator(s, '/');
    assert [s][..0] == [];
  }

  /** Splitting at a slash and dropping empty parts works piece by piece. */
  lemma NonEmptySplitAppend(x: string, y: string)
    ensures NonEmpty(Split(x + "/" + y, '/')) == NonEmpty(Split(x, '/')) + NonEmpty(Split(y, '/'))
  {
    SplitAppend(x, '/', y);
    NonEmptyAppend(Split(x, '/'), Split(y, '/'));
  }

  /** Reading the URL of a model repository gives back its organisation and
      name: the parser inverts how the hub forms these URLs. */
  lemma RepoUrlRoundTrip(prefix: string, org: string, repo: string)
    requires org != "" && '/' !in org && repo != "" && '/' !in repo
    requires var p := NonEmpty(Split(prefix, '/')); |p| > 0 && p[|p| - 1] != "datasets"
    ensures ParseRepoUrl(prefix + "/" + org + "/" + repo) == Ok((org, repo))
  {
    var p := NonEmpty(Split(prefix, '/'));
    SplitOne(org);
    SplitOne(repo);
    NonEmptySplitAppend(prefix, org);
    NonEmptySplitAppend(prefix + "/" + org, repo);
    var items := p + [org] + [repo];
    assert items[|items| - 3] == p[|p| - 1];
  }

  /** The URL of a dataset repository gives back its organisation under
      `datasets/`, and its name. */
  lemma DatasetUrlRoundTrip(prefix: string, org: string, repo: string)
    requires org != "" && '/' !in org && repo != "" && '/' !in repo
    ensures ParseRepoUrl(prefix + "/" + "datasets" + "/" + org + "/" + repo) == Ok(("datasets/" + org, repo))
  {
    var p := NonEmpty(Split(prefix, '/'));
    SplitOne(org);
    SplitOne(repo);
    SplitOne("datasets");
    var d := prefix + "/" + "datasets";
    NonEmptySplitAppend(prefix, "datasets");
    NonEmptySplitAppend(d, org);
    NonEmptySplitAppend(d + "/" + org, repo);
    var items := p + ["datasets"] + [org] + [repo];
    assert items[|items| - 3] == "datasets";
  }

  // ---------------------------------------------------------------- upload target

  datatype RepoType = Model | Dataset

  /** The repository id and type `upload` derives from the organisation: an
      organisation under `datasets/` is a dataset, with every `datasets/`
      removed from it. */
  function UploadTarget(org: string, repoName: string): (string, RepoType)
  {
    if StartsWith(org, "datasets/") then (RemoveAll(org, "datasets/") + "/" + repoName, Dataset)
    else (org + "/" + repoName, Model)
  }

  /** A repository read from its URL is uploaded back to the same id, with
      the type the URL shows (see `RepoUrlRoundTrip` and `DatasetUrlRoundTrip`). */
  lemma UploadTargetOfUrl(org: string, repo: string)
    requires org != "" && '/' !in org && repo != ""
    ensures UploadTarget(org, repo) == (org + "/" + repo, Model)
    ensures UploadTarget("datasets/" + org, repo) == (org + "/" + repo, Dataset)
  {
    var pat := "datasets/";
    NoSlashNoPattern(org, pat);
    assert ("datasets/" + org)[..9] == pat;
    assert ("datasets/" + org)[|pat|..] == org;
    RemoveAbsent(org, pat);
  }

  /** A text without a slash neither starts with nor contains `datasets/`. */
  lemma NoSlashNoPattern(s: string, pat: string)
    requires '/' !in s && pat == "datasets/"
    ensures !StartsWith(s, pat) && !Occurs(s, pat)
  {
    forall k | 0 <= k <= |s|
      ensures !StartsWith(s[k..], pat)
    {
      if |s[k..]| >= 9 {
        assert s[k..][..9][8] == s[k + 8];
      }
    }
    assert s[0..] == s;
  }

  // ---------------------------------------------------------------- ls-files

  /** The path on a `git lfs ls-files` line: its last space-separated word,
      stripped. */
  function LsFilesPath(line: string): string
  {
    Strip(LastWord(line))
  }

  /** `lfs_list_files`: one path per output line, in order. */
  function LsFilesPaths(lines: seq<string>): (paths: seq<string>)
    ensures |paths| == |lines|
    ensures forall k :: 0 <= k < |lines| ==> paths[k] == LsFilesPath(lines[k])
  {
    MapSeq(LsFilesPath, lines)
  }

  /** The last word of a line. */
  function LastWord(line: string): string
  {
    var words := Split(line, ' ');
    words[|words| - 1]
  }

  /** Only the text after the last space counts. */
  lemma LastWordAfterSpace(x: string, y: string)
    ensures LastWord(x + " " + y) == LastWord(y)
  {
    var a, b := Split(x, ' '), Split(y, ' ');
    SplitAppend(x, ' ', y);
    var w := Split(x + " " + y, ' ');
    assert w == a + b;
    assert w[|w| - 1] == b[|b| - 1];
  }

  /** A line `oid marker path` with a path free of spaces gives the path. */
  lemma LsFilesPathRoundTrip(oid: string, marker: string, path: string)
    requires ' ' !in path && Strip(path) == path
    ensures LsFilesPath(oid + " " + marker + " " + path) == path
  {
    LastWordAfterSpace(oid + " " + marker, path);
    SplitNoSeparator(path, ' ');
    assert LsFilesPath(oid + " " + marker + " " + path) == Strip(LastWord(path));
  }

  /** A path holding a space loses everything up to its last space: on the
      line `oid marker a b` the path `a b` is read as `b`. */
  lemma LsFilesPathWithSpace(oid: string, marker: string, a: string, b: string)
    requires ' ' !in b && Strip(b) == b
    ensures LsFilesPath(oid + " " + marker + " " + a + " " + b) == b
    ensures b != a + " " + b
  {
    LastWordAfterSpace(oid + " " + marker + " " + a, b);
    SplitNoSeparator(b, ' ');
    assert |a + " " + b| > |b|;
  }

  /** The text after the first space, if there is one. */
  function AfterFirstWord(s: string): Option<string>
  {
    var i := IndexOf(s, ' ');
    if i < |s| then Some(s[i + 1..]) else None
  }

  /** The path of an `oid marker path` line read as the text after the first
      two words, so that a path may hold spaces. A line with fewer than two
      spaces is read as before. */
  function LsFilesPathFixed(line: string): string
  {
    match AfterFirstWord(line)
    case Some(rest) =>
      (match AfterFirstWord(rest)
       case Some(path) => Strip(path)
       case None => LsFilesPath(line))
    case None => LsFilesPath(line)
  }

  /** After the first word of `x y`, when `x` has no space, comes `y`. */
  lemma AfterFirstWordOf(x: string, y: string)
    requires ' ' !in x
    ensures AfterFirstWord(x + " " + y) == Some(y)
  {
    IndexOfAfter(x, ' ', y);
    assert x + " " + y == x + [' '] + y;
    assert (x + " " + y)[|x| + 1..] == y;
  }

  lemma FixedOfWords(line: string, rest: string, path: string)
    requires AfterFirstWord(line) == Some(rest) && AfterFirstWord(rest) == Some(path)
    ensures LsFilesPathFixed(line) == Strip(path)
  {
  }

  /** Any stripped path, spaces and all, comes back from its line
      `oid (marker path)`. */
  lemma LsFilesPathFixedRoundTrip(oid: string, marker: string, path: string)
    requires ' ' !in oid && ' ' !in marker && Strip(path) == path
    ensures LsFilesPathFixed(oid + " " + (marker + " " + path)) == path
  {
    var rest := marker + " " + path;
    AfterFirstWordOf(oid, rest);
    AfterFirstWordOf(marker, path);
    FixedOfWords(oid + " " + rest, rest, path);
  }

  // ---------------------------------------------------------------- slicing

  /** `[s[i:i + width] for i in range(lo, len(s), step)]` for a positive step. */
  function SlicesFrom<T>(s: seq<T>, lo: nat, step: nat, width: nat): seq<seq<T>>
    requires step > 0
    decreases |s| - lo
  {
    if lo >= |s| then [] else [PySlice(s, lo, lo + width)] + SlicesFrom(s, lo + step, step, width)
  }

  /** There is one slice per value of `range(lo, len(s), step)`, and each
      starts at its value. */
  lemma {:induction false} SlicesAtStarts<T>(s: seq<T>, lo: nat, step: nat, width: nat)
    requires step > 0
    ensures var r, st := SlicesFrom(s, lo, step, width), PyRange.Starts(lo, |s|, step);
            && |r| == |st|
            && forall j :: 0 <= j < |r| ==> st[j] >= 0 && r[j] == PySlice(s, st[j], st[j] + width)
    decreases |s| - lo
  {
    if lo < |s| {
      SlicesAtStarts(s, lo + step, step, width);
    }
  }

  /** The j-th slice starts at `lo + j * step`, and there are
      `ceil((|s| - lo) / step)` of them. */
  lemma SlicesShape<T>(s: seq<T>, lo: nat, step: nat, width: nat)
    requires step > 0
    ensures var r := SlicesFrom(s, lo, step, width);
            && (lo >= |s| ==> r == [])
            && (lo < |s| ==> (|r| - 1) * step < |s| - lo <= |r| * step)
            && forall j :: 0 <= j < |r| ==> r[j] == PySlice(s, lo + j * step, lo + j * step + width)
  {
    SlicesAtStarts(s, lo, step, width);
    PyRange.StartsShape(lo, |s|, step);
  }

  /** Slices as wide as the step are all full but the last, which is not empty. */
  lemma {:induction false} SlicesFull<T>(s: seq<T>, lo: nat, step: nat)
    requires step > 0
    ensures var r := SlicesFrom(s, lo, step, step);
            && (forall j :: 0 <= j < |r| - 1 ==> |r[j]| == step)
            && (r != [] ==> 0 < |r[|r| - 1]| <= step)
    decreases |s| - lo
  {
    if lo < |s| {
      SlicesFull(s, lo + step, step);
      var rest := SlicesFrom(s, lo + step, step, step);
      if rest != [] {
        assert lo + step < |s|;
      }
    }
  }

  /** Slices as wide as the step cut the tail of `s` into consecutive pieces. */
  lemma {:induction false} SlicesJoin<T>(s: seq<T>, lo: nat, step: nat)
    requires step > 0 && lo <= |s|
    ensures Flatten(SlicesFrom(s, lo, step, step)) == s[lo..]
    decreases |s| - lo
  {
    if lo < |s| {
      var hi := Min(lo + step, |s|);
      var first := PySlice(s, lo, lo + step);
      assert first == s[lo..hi];
      FlattenCons(first, SlicesFrom(s, lo + step, step, step));
      if lo + step <= |s| {
        SlicesJoin(s, lo + step, step);
        assert s[lo..] == s[lo..hi] + s[lo + step..];
      } else {
        assert SlicesFrom(s, lo + step, step, step) == [];
        assert s[lo..] == first + [];
      }
    }
  }

  // ---------------------------------------------------------------- batching

  /** `[files[i:i + batch_size] for i in range(0, len(files), batch_size)]`. */
  function Batches<T>(files: seq<T>, batchSize: int): Result<seq<seq<T>>, LfsError>
  {
    if batchSize == 0 then Err(ValueError)
    else if batchSize < 0 then Ok([])
    else Ok(SlicesFrom(files, 0, batchSize, batchSize))
  }

  /** With a positive size the batches are `ceil(n / size)` consecutive pieces
      of the list, all full but the last, which is not empty. */
  lemma BatchesShape<T>(files: seq<T>, batchSize: int)
    requires batchSize > 0
    ensures var bs := Batches(files, batchSize).value;
            && Flatten(bs) == files
            && (files == [] ==> bs == [])
            && (files != [] ==> (|bs| - 1) * batchSize < |files| <= |bs| * batchSize)
            && (forall j :: 0 <= j < |bs| - 1 ==> |bs[j]| == batchSize)
            && (bs != [] ==> 0 < |bs[|bs| - 1]| <= batchSize)
  {
    SlicesJoin(files, 0, batchSize);
    assert files[0..] == files;
    SlicesAtStarts(files, 0, batchSize, batchSize);
    PyRange.StartsShape(0, |files|, batchSize);
    SlicesFull(files, 0, batchSize);
  }

  /** A batch size of 0 raises, and a negative one yields no batches. */
  lemma BatchesDegenerate<T>(files: seq<T>, batchSize: int)
    requires batchSize <= 0
    ensures batchSize == 0 <==> Batches(files, batchSize) == Err(ValueError)
    ensures batchSize < 0 ==> Batches(files, batchSize) == Ok([])
  {
  }

  // ---------------------------------------------------------------- pending downloads

  /** `[path for path in paths if path not in downloaded]`. */
  function Pending(paths: seq<string>, downloaded: set<string>): (r: seq<string>)
    ensures |r| <= |paths|
  {
    if paths == [] then []
    else if paths[0] in downloaded then Pending(paths[1..], downloaded)
    else [paths[0]] + Pending(paths[1..], downloaded)
  }

  /** A path is pending exactly when it is listed and not yet downloaded. */
  lemma {:induction false} PendingMembers(paths: seq<string>, downloaded: set<string>, p: string)
    ensures p in Pending(paths, downloaded) <==> p in paths && p !in downloaded
  {
    if paths != [] {
      PendingMembers(paths[1..], downloaded, p);
      assert paths == [paths[0]] + paths[1..];
    }
  }

  /** Order is kept: the pending list is what remains of `paths` after the
      downloaded ones are struck out, and filtering it again changes nothing. */
  lemma {:induction false} PendingOrder(paths: seq<string>, downloaded: set<string>, more: seq<string>)
    ensures Pending(paths + more, downloaded) == Pending(paths, downloaded) + Pending(more, downloaded)
    ensures Pending(Pending(paths, downloaded), downloaded) == Pending(paths, downloaded)
  {
    if paths != [] {
      assert (paths + more)[1..] == paths[1..] + more;
      PendingOrder(paths[1..], downloaded, more);
    } else {
      assert paths + more == more;
    }
  }

  /** The default URL template `https://huggingface.co/{org}/{repo}/resolve/main/{path}`. */
  function HubUrl(org: string, repo: string, path: string): string
  {
    "https://huggingface.co/" + org + "/" + repo + "/resolve/main/" + path
  }

  /** The pending paths and their URLs, index by index. */
  function PendingDownloads(paths: seq<string>, downloaded: set<string>, org: string, repo: string)
    : (r: (seq<string>, seq<string>))
    ensures r.0 == Pending(paths, downloaded)
    ensures |r.1| == |r.0|
    ensures forall k :: 0 <= k < |r.0| ==> r.1[k] == HubUrl(org, repo, r.0[k])
  {
    var pending := Pending(paths, downloaded);
    (pending, MapSeq(p => HubUrl(org, repo, p), pending))
  }

  // ---------------------------------------------------------------- proxy

  /** The proxy of the `download` command: a truthy port means the local proxy
      on that port, otherwise a truthy proxy string, otherwise none. */
  function ChooseProxy(proxy: Option<string>, proxyPort: Option<int>): Option<string>
  {
    var portGiven := proxyPort.Some? && proxyPort.value != 0;
    if Truthy(proxy) || portGiven then
      if portGiven then Some("http://127.0.0.1:" + IntToString(proxyPort.value)) else proxy
    else None
  }

  /** A port wins over a proxy string and can be read back from the proxy URL;
      a proxy string alone is used as given; otherwise there is no proxy. */
  lemma ChooseProxyCases(proxy: Option<string>, proxyPort: Option<int>)
    ensures var r := ChooseProxy(proxy, proxyPort);
            && (proxyPort.Some? && proxyPort.value > 0 ==>
                  r.Some? && |r.value| > 17 && r.value[..17] == "http://127.0.0.1:"
                  && AllDigits(r.value[17..]) && ParseDigits(r.value[17..]) == proxyPort.value)
            && (!(proxyPort.Some? && proxyPort.value != 0) ==> r == if Truthy(proxy) then proxy else None)
            && (r.Some? <==> Truthy(proxy) || (proxyPort.Some? && proxyPort.value != 0))
  {
    if proxyPort.Some? && proxyPort.value > 0 {
      var digits := NatToString(proxyPort.value);
      var r := "http://127.0.0.1:" + digits;
      assert r[17..] == digits;
      ParseFormatted(proxyPort.value);
    }
  }

  // ---------------------------------------------------------------- pull

  /** The fetch command for one list of paths. */
  function FetchCommand(paths: seq<string>): string
  {
    "git lfs fetch --include=\"" + JoinWith(paths, ",") + "\""
  }

  const Checkout: string := "git lfs checkout"

  /** The commands `pull` runs when each fetch takes `width` paths from every
      `chunk`-th position. */
  function PullCommands(paths: seq<string>, chunk: int, width: nat): Result<seq<string>, LfsError>
  {
    if chunk == 0 then Err(ValueError)
    else if chunk < 0 then Ok([Checkout])
    else Ok(MapSeq(FetchCommand, SlicesFrom(paths, 0, chunk, width)) + [Checkout])
  }

  /** Runs the fetch loop of `pull` and returns the commands in order. */
  method FetchLoop(paths: seq<string>, chunk: int, width: nat) returns (r: Result<seq<string>, LfsError>)
    ensures r == PullCommands(paths, chunk, width)
  {
    if chunk == 0 {
      return Err(ValueError);
    } else if chunk < 0 {
      return Ok([Checkout]);
    }
    ghost var all := MapSeq(FetchCommand, SlicesFrom(paths, 0, chunk, width));
    var cmds: seq<string> := [];
    var idx: nat := 0;
    while idx < |paths|
      invariant cmds + MapSeq(FetchCommand, SlicesFrom(paths, idx, chunk, width)) == all
      decreases |paths| - idx
    {
      var slice := PySlice(paths, idx, idx + width);
      ghost var rest := SlicesFrom(paths, idx + chunk, chunk, width);
      MapSeqCons(FetchCommand, slice, rest);
      ghost var tail := MapSeq(FetchCommand, rest);
      AppendAssoc(cmds, [FetchCommand(slice)], tail);
      cmds := cmds + [FetchCommand(slice)];
      idx := idx + chunk;
    }
    assert SlicesFrom(paths, idx, chunk, width) == [];
    assert cmds + [] == cmds;
    return Ok(cmds + [Checkout]);
  }

  /** `pull`: every fetch takes 100 paths, whatever the chunk. */
  method Pull(paths: seq<string>, chunk: int) returns (r: Result<seq<string>, LfsError>)
    ensures r == PullCommands(paths, chunk, 100)
  {
    r := FetchLoop(paths, chunk, 100);
  }

  /** `pull` with each fetch taking one chunk of paths. */
  method PullFixed(paths: seq<string>, chunk: int) returns (r: Result<seq<string>, LfsError>)
    ensures r == PullCommands(paths, chunk, if chunk > 0 then chunk else 0)
  {
    r := FetchLoop(paths, chunk, if chunk > 0 then chunk else 0);
  }

  /** Position `i` is in the fetch list that starts at `j * chunk`. */
  predicate FetchedBy(i: nat, j: nat, chunk: nat, width: nat)
  {
    j * chunk <= i < j * chunk + width
  }

  /** As written, position `i` is fetched exactly when it lies within 100 of
      a multiple of the chunk: with a chunk above 100 the rest of every chunk
      is never fetched. */
  lemma PullCoverage(n: nat, chunk: nat, i: nat)
    requires chunk > 0 && i < n
    ensures (exists j: nat :: j * chunk < n && FetchedBy(i, j, chunk, 100)) <==> i % chunk < 100
  {
    var q := i / chunk;
    assert FetchedBy(i, q, chunk, chunk);
    if i % chunk < 100 {
      assert q * chunk <= i < n;
      assert FetchedBy(i, q, chunk, 100);
    }
    forall j: nat | j * chunk < n && FetchedBy(i, j, chunk, 100)
      ensures i % chunk < 100
    {
      if chunk > 100 {
        assert j * chunk <= i < j * chunk + chunk;
        DivUnique(i, chunk, j);
      }
    }
  }

  lemma DivUnique(i: nat, chunk: nat, j: nat)
    requires chunk > 0 && j * chunk <= i < j * chunk + chunk
    ensures i % chunk == i - j * chunk
  {
    PyRange.FloorDivUnique(i, chunk, j);
  }

  /** With 150 paths and a chunk of 200, only the first 100 paths are fetched. */
  lemma PullSkipsPaths(paths: seq<string>)
    requires |paths| == 150
    ensures PullCommands(paths, 200, 100) == Ok([FetchCommand(paths[..100]), Checkout])
  {
    var x := paths[..100];
    assert SlicesFrom(paths, 200, 200, 100) == [];
    assert SlicesFrom(paths, 0, 200, 100) == [x] + [];
    MapSeqCons(FetchCommand, x, []);
    assert MapSeq(FetchCommand, SlicesFrom(paths, 0, 200, 100)) == [FetchCommand(x)] + [];
    assert [FetchCommand(x)] + [] + [Checkout] == [FetchCommand(x), Checkout];
  }

  /** The corrected fetch lists are the chunks of the path list: every path is
      fetched once, in order. */
  lemma PullFixedFetchesAll(paths: seq<string>, chunk: int)
    requires chunk > 0
    ensures var lists := SlicesFrom(paths, 0, chunk, chunk);
            && PullCommands(paths, chunk, chunk) == Ok(MapSeq(FetchCommand, lists) + [Checkout])
            && Flatten(lists) == paths
  {
    SlicesJoin(paths, 0, chunk);
    assert paths[0..] == paths;
  }

  // ---------------------------------------------------------------- wait

  /** A download handed to the pool: the worker and the path it fetches.
      Futures are compared by value here, while Python compares future
      objects by identity, so two futures with the same worker and path
      would be one element of the set. In `download_repo` a worker is given
      a new download only once its previous future is done, so the futures
      not yet done always differ in `processId`. */
  datatype Future = Future(processId: nat, path: string)

  /** The mutable set of downloads not known to be finished. */
  class NotDone {
    var futures: set<Future>

    constructor (initial: set<Future>)
      ensures futures == initial
    {
      futures := initial;
    }
  }

  function ReadyOf(s: set<Future>, ready: Future -> bool): set<Future>
  {
    set f | f in s && ready(f)
  }

  /** `wait(not_done)`: moves each finished download out of `not_done` into the
      returned set. `ready` is what `future.ready()` answers during the scan. */
  method Wait(notDone: NotDone, ready: Future -> bool) returns (done: set<Future>)
    modifies notDone
    ensures done == ReadyOf(old(notDone.futures), ready)
    ensures notDone.futures == old(notDone.futures) - done
  {
    done := {};
    var todo := notDone.futures;
    while todo != {}
      invariant todo <= old(notDone.futures)
      invariant done == ReadyOf(old(notDone.futures) - todo, ready)
      invariant notDone.futures == old(notDone.futures) - done
      decreases |todo|
    {
      var f :| f in todo;
      if ready(f) {
        notDone.futures := notDone.futures - {f};
        done := done + {f};
      }
      todo := todo - {f};
    }
  }

  /** The finished and the unfinished downloads split the set. */
  lemma WaitPartition(s: set<Future>, ready: Future -> bool)
    ensures ReadyOf(s, ready) <= s
    ensures ReadyOf(s, ready) !! (s - ReadyOf(s, ready))
    ensures forall f :: f in s - ReadyOf(s, ready) ==> !ready(f)
  {
  }
}

=== FILE: merge.dfy ===
/** Putting a download back together: `merge_shard_files` copies the shard
    files one after another into the output, `write_shard_async` copies one
    shard into the output at its start offset, and the in-memory download
    joins the shard buffers in order. */
module Merge {
  import opened Common
  import opened Files
  import opened RangePlanner

  datatype MergeError = FileNotFoundError(path: string)

  /** `f.read(n)` on a file positioned at `pos`: at most `n` bytes, everything
      that is left when `n` is negative, nothing when `n` is 0. */
  function Read(data: seq<byte>, pos: nat, n: int): (r: seq<byte>)
    requires pos <= |data|
    ensures pos + |r| <= |data| && r == data[pos..pos + |r|]
    ensures n < 0 ==> |r| == |data| - pos
    ensures n >= 0 ==> |r| == Min(n, |data| - pos)
  {
    if n < 0 then data[pos..] else data[pos..Min(pos + n, |data|)]
  }

  /** What a `read(chunk_size)` loop that stops at the first empty chunk
      copies out of `data`: all of it, unless the chunk size is 0. */
  function Copied(data: seq<byte>, chunkSize: int): seq<byte>
  {
    if chunkSize == 0 then [] else data
  }

  /** Index of the first path that is not a file, or `|paths|`. */
  function FirstMissing(files: map<string, seq<byte>>, paths: seq<string>): (k: nat)
    ensures k <= |paths|
    ensures forall j :: 0 <= j < k ==> paths[j] in files
    ensures k < |paths| ==> paths[k] !in files
  {
    if paths == [] then 0
    else if paths[0] !in files then 0
    else 1 + FirstMissing(files, paths[1..])
  }

  /** What the copy loops take from each file, in order. */
  function Contents(files: map<string, seq<byte>>, paths: seq<string>, chunkSize: int): (r: seq<seq<byte>>)
    requires forall j :: 0 <= j < |paths| ==> paths[j] in files
    ensures |r| == |paths|
  {
    seq(|paths|, j requires 0 <= j < |paths| => Copied(files[paths[j]], chunkSize))
  }

  /** The output of a merge of `paths`. */
  function Merged(files: map<string, seq<byte>>, paths: seq<string>, chunkSize: int): seq<byte>
    requires forall j :: 0 <= j < |paths| ==> paths[j] in files
  {
    Flatten(Contents(files, paths, chunkSize))
  }

  /** The loop `while True: chunk = src.read(chunk_size); if not chunk: break;
      dst.write(chunk)` with `dst` opened for writing at its end. */
  method AppendCopy(disk: Disk, src: string, dst: string, chunkSize: int)
    requires src in disk.files && dst in disk.files && src != dst
    modifies disk
    ensures disk.files == old(disk.files)[dst := old(disk.files)[dst] + Copied(old(disk.files)[src], chunkSize)]
  {
    var data := disk.files[src];
    ghost var start := disk.files[dst];
    var pos := 0;
    assert start + data[..0] == start;
    assert disk.files[dst := start] == disk.files;
    while true
      invariant 0 <= pos <= |data|
      invariant chunkSize == 0 ==> pos == 0
      invariant disk.files == old(disk.files)[dst := start + data[..pos]]
      decreases |data| - pos
    {
      var chunk := Read(data, pos, chunkSize);
      if chunk == [] {
        break;
      }
      assert data[..pos + |chunk|] == data[..pos] + chunk;
      assert start + data[..pos] + chunk == start + data[..pos + |chunk|];
      UpdateTwice(old(disk.files), dst, start + data[..pos], start + data[..pos + |chunk|]);
      disk.files := disk.files[dst := disk.files[dst] + chunk];
      pos := pos + |chunk|;
    }
    assert pos == |data| || chunkSize == 0;
    assert data[..|data|] == data;
  }

  /** `merge_shard_files(shard_paths, chunk_size, out)`: truncate `out`, then
      append every shard to it in order; a missing shard raises
      `FileNotFoundError` and leaves what was merged so far. */
  method MergeShardFiles(disk: Disk, shardPaths: seq<string>, chunkSize: int, out: string)
    returns (r: Result<(), MergeError>)
    requires out !in shardPaths
    modifies disk
    ensures var k := FirstMissing(old(disk.files), shardPaths);
            && disk.files == old(disk.files)[out := Merged(old(disk.files), shardPaths[..k], chunkSize)]
            && (r.Ok? <==> k == |shardPaths|)
            && (r.Err? ==> r.error == FileNotFoundError(shardPaths[k]))
  {
    var k := FirstMissing(disk.files, shardPaths);
    disk.files := disk.files[out := []];
    var i := 0;
    while i < |shardPaths|
      invariant 0 <= i <= |shardPaths|
      invariant forall j :: 0 <= j < i ==> shardPaths[j] in old(disk.files)
      invariant i <= k
      invariant disk.files == old(disk.files)[out := Merged(old(disk.files), shardPaths[..i], chunkSize)]
    {
      var p := shardPaths[i];
      assert p != out;
      if p !in disk.files {
        assert FirstMissing(old(disk.files), shardPaths) == i by {
          FirstMissingAt(old(disk.files), shardPaths, i);
        }
        return Err(FileNotFoundError(p));
      }
      ghost var before := Merged(old(disk.files), shardPaths[..i], chunkSize);
      AppendCopy(disk, p, out, chunkSize);
      MergedSnoc(old(disk.files), shardPaths, i, chunkSize);
      UpdateTwice(old(disk.files), out, before, before + Copied(old(disk.files)[p], chunkSize));
      i := i + 1;
    }
    assert shardPaths[..i] == shardPaths;
    r := Ok(());
  }

  /** `write_shard_async(out, s_pos, shard_path, chunk_size)`: open `out` for
      update, seek to `s_pos` and copy the shard there chunk by chunk. The
      shard is taken to be a file other than the output: nothing in the
      downloader calls this function, and copying a file into itself is not a
      use it was written for. */
  method WriteShard(disk: Disk, out: string, sPos: nat, shardPath: string, chunkSize: int)
    returns (r: Result<(), MergeError>)
    requires out != shardPath
    modifies disk
    ensures out !in old(disk.files) ==> r == Err(FileNotFoundError(out)) && disk.files == old(disk.files)
    ensures out in old(disk.files) && shardPath !in old(disk.files) ==>
              r == Err(FileNotFoundError(shardPath)) && disk.files == old(disk.files)
    ensures out in old(disk.files) && shardPath in old(disk.files) ==>
              && r == Ok(())
              && disk.files == old(disk.files)[out :=
                   PositionalWrite(old(disk.files)[out], sPos, Copied(old(disk.files)[shardPath], chunkSize))]
  {
    if out !in disk.files {
      return Err(FileNotFoundError(out));
    }
    if shardPath !in disk.files {
      return Err(FileNotFoundError(shardPath));
    }
    var data := disk.files[shardPath];
    ghost var start := disk.files[out];
    var pos := 0;
    assert data[..0] == [];
    assert disk.files[out := PositionalWrite(start, sPos, [])] == disk.files;
    while true
      invariant 0 <= pos <= |data|
      invariant chunkSize == 0 ==> pos == 0
      invariant disk.files == old(disk.files)[out := PositionalWrite(start, sPos, data[..pos])]
      decreases |data| - pos
    {
      var chunk := Read(data, pos, chunkSize);
      if chunk == [] {
        break;
      }
      PositionalWriteCompose(start, sPos, data[..pos], chunk);
      assert data[..pos] + chunk == data[..pos + |chunk|];
      UpdateTwice(old(disk.files), out, PositionalWrite(start, sPos, data[..pos]),
                  PositionalWrite(start, sPos, data[..pos + |chunk|]));
      disk.files := disk.files[out := PositionalWrite(disk.files[out], sPos + pos, chunk)];
      pos := pos + |chunk|;
    }
    assert data[..|data|] == data;
    r := Ok(());
  }

  /** Lines 281-285: the in-memory download writes every shard buffer, in
      order, into one fresh buffer. */
  method ConcatBuffers(buffers: seq<seq<byte>>) returns (r: seq<byte>)
    ensures r == Flatten(buffers)
    ensures |r| == TotalSize(buffers)
  {
    r := [];
    var i := 0;
    while i < |buffers|
      invariant 0 <= i <= |buffers|
      invariant r == Flatten(buffers[..i])
      invariant |r| == TotalSize(buffers[..i])
    {
      assert buffers[..i + 1][..i] == buffers[..i];
      r := r + buffers[i];
      i := i + 1;
    }
    assert buffers[..i] == buffers;
  }

  function TotalSize(buffers: seq<seq<byte>>): nat
  {
    if buffers == [] then 0 else TotalSize(buffers[..|buffers| - 1]) + |buffers[|buffers| - 1]|
  }

  // ---------------------------------------------------------------- helpers

  /** The first missing path is the first one, counting from the left, that
      is not a file. */
  lemma {:induction false} FirstMissingAt(files: map<string, seq<byte>>, paths: seq<string>, i: nat)
    requires i <= |paths|
    requires i < |paths| ==> paths[i] !in files
    requires forall j :: 0 <= j < i ==> paths[j] in files
    ensures FirstMissing(files, paths) == i
    decreases i
  {
    if i > 0 {
      assert paths[0] in files;
      FirstMissingAt(files, paths[1..], i - 1);
    }
  }

  lemma MergedSnoc(files: map<string, seq<byte>>, paths: seq<string>, i: nat, chunkSize: int)
    requires i < |paths|
    requires forall j :: 0 <= j <= i ==> paths[j] in files
    ensures Merged(files, paths[..i + 1], chunkSize)
            == Merged(files, paths[..i], chunkSize) + Copied(files[paths[i]], chunkSize)
  {
    var c := Contents(files, paths[..i + 1], chunkSize);
    assert c[..i] == Contents(files, paths[..i], chunkSize);
  }

  // ---------------------------------------------------------------- properties

  /** The pieces of `body` a list of ranges selects, in order. */
  function Pieces(body: seq<byte>, rs: seq<ShardRange>): (r: seq<seq<byte>>)
    requires forall k :: 0 <= k < |rs| ==> 0 <= rs[k].start <= rs[k].end + 1 <= |body|
    ensures |r| == |rs|
  {
    seq(|rs|, k requires 0 <= k < |rs| => body[rs[k].start..rs[k].end + 1])
  }

  /** Splitting then merging gives the content back: the pieces a partition
      of `[lo, hi)` selects, joined in order, are `body[lo..hi]`. */
  lemma {:induction false} PiecesJoin(body: seq<byte>, rs: seq<ShardRange>, lo: int, hi: int)
    requires Partitions(rs, lo, hi)
    requires 0 <= lo < hi <= |body|
    ensures forall k :: 0 <= k < |rs| ==> 0 <= rs[k].start <= rs[k].end + 1 <= |body|
    ensures Flatten(Pieces(body, rs)) == body[lo..hi]
    decreases |rs|
  {
    PartitionBounds(rs, lo, hi);
    var m := |rs|;
    var ps := Pieces(body, rs);
    if m == 1 {
      assert ps[..0] == [];
    } else {
      var init := rs[..m - 1];
      PartitionInit(rs, lo, hi);
      PiecesJoin(body, init, lo, rs[m - 1].start);
      assert ps[..m - 1] == Pieces(body, init);
      assert body[lo..rs[m - 1].start] + body[rs[m - 1].start..hi] == body[lo..hi];
    }
  }

  /** Merging the shard files of a download whose shard files hold their
      ranges of the body reproduces the body (for any non-zero chunk size). */
  lemma MergeRestoresBody(files: map<string, seq<byte>>, paths: seq<string>, rs: seq<ShardRange>,
                          body: seq<byte>, chunkSize: int)
    requires Partitions(rs, 0, |body|)
    requires |paths| == |rs| && chunkSize != 0
    requires forall k :: 0 <= k < |rs| ==> 0 <= rs[k].start <= rs[k].end + 1 <= |body|
    requires forall k :: 0 <= k < |paths| ==>
               paths[k] in files && files[paths[k]] == body[rs[k].start..rs[k].end + 1]
    ensures FirstMissing(files, paths) == |paths|
    ensures Merged(files, paths, chunkSize) == body
  {
    FirstMissingAt(files, paths, |paths|);
    PiecesJoin(body, rs, 0, |body|);
    assert Contents(files, paths, chunkSize) == Pieces(body, rs);
  }

  /** A chunk size of 0 copies nothing: the merged output is empty. */
  lemma ZeroChunkMergesNothing(files: map<string, seq<byte>>, paths: seq<string>)
    requires forall j :: 0 <= j < |paths| ==> paths[j] in files
    ensures Merged(files, paths, 0) == []
  {
    var c := Contents(files, paths, 0);
    FlattenEmpties(c);
  }

  lemma {:induction false} FlattenEmpties(c: seq<seq<byte>>)
    requires forall j :: 0 <= j < |c| ==> c[j] == []
    ensures Flatten(c) == []
    decreases |c|
  {
    if c != [] {
      FlattenEmpties(c[..|c| - 1]);
    }
  }

  /** Writing the pieces of a partition of the body, each at its start and
      in order, into an empty file leaves the body. */
  lemma {:induction false} PositionalAssembly(body: seq<byte>, rs: seq<ShardRange>, hi: int)
    requires Partitions(rs, 0, hi) && hi <= |body|
    ensures forall k :: 0 <= k < |rs| ==> 0 <= rs[k].start <= rs[k].end + 1 <= |body|
    ensures WriteAll([], rs, Pieces(body, rs)) == body[..hi]
    decreases |rs|
  {
    PartitionBounds(rs, 0, hi);
    var m := |rs|;
    var ps := Pieces(body, rs);
    if m == 1 {
      PositionalWriteAtEnd([], ps[0]);
      assert body[0..hi] == body[..hi];
    } else {
      var init := rs[..m - 1];
      PartitionInit(rs, 0, hi);
      PositionalAssembly(body, init, rs[m - 1].start);
      assert ps[..m - 1] == Pieces(body, init);
      var prefix := WriteAll([], init, Pieces(body, init));
      PositionalWriteAtEnd(prefix, ps[m - 1]);
      assert body[..rs[m - 1].start] + body[rs[m - 1].start..hi] == body[..hi];
    }
  }

  /** The file after writing `pieces[k]` at `rs[k].start`, for k in order. */
  function WriteAll(data: seq<byte>, rs: seq<ShardRange>, pieces: seq<seq<byte>>): seq<byte>
    requires |pieces| == |rs|
    requires forall k :: 0 <= k < |rs| ==> 0 <= rs[k].start
  {
    if rs == [] then data
    else PositionalWrite(WriteAll(data, rs[..|rs| - 1], pieces[..|rs| - 1]), rs[|rs| - 1].start, pieces[|rs| - 1])
  }

  /** The in-memory download: the joined shard buffers are the body. */
  lemma BuffersRestoreBody(body: seq<byte>, rs: seq<ShardRange>, buffers: seq<seq<byte>>)
    requires Partitions(rs, 0, |body|)
    requires |buffers| == |rs|
    requires forall k :: 0 <= k < |rs| ==> 0 <= rs[k].start <= rs[k].end + 1 <= |body|
    requires forall k :: 0 <= k < |rs| ==> buffers[k] == body[rs[k].start..rs[k].end + 1]
    ensures Flatten(buffers) == body
  {
    PiecesJoin(body, rs, 0, |body|);
    assert buffers == Pieces(body, rs);
  }
}

=== FILE: posix_path.dfy ===
/** The three functions of Python's `posixpath` that name the downloader's hidden
    sibling files: `basename`, `dirname` and two-argument `join`. */
module PosixPath {

  /** Every character is a `/` (Python's `head == sep * len(head)`). */
  predicate AllSlashes(s: string)
  {
    forall i :: 0 <= i < |s| ==> s[i] == '/'
  }

  /** `p.rfind('/') + 1`: the length of the directory part, its final slash included. */
  function SplitPoint(p: string): (i: nat)
    ensures i <= |p|
    ensures i > 0 ==> p[i - 1] == '/'
    ensures forall k :: i <= k < |p| ==> p[k] != '/'
  {
    if p == [] then 0
    else if p[|p| - 1] == '/' then |p|
    else SplitPoint(p[..|p| - 1])
  }

  /** `posixpath.basename(p)`: the text after the last slash. */
  function Basename(p: string): (b: string)
    ensures '/' !in b
  {
    var b := p[SplitPoint(p)..];
    assert forall k :: 0 <= k < |b| ==> b[k] != '/';
    b
  }

  /** `s.rstrip('/')`. */
  function RStripSlash(s: string): (r: string)
    ensures |r| <= |s| && r == s[..|r|]
    ensures r == [] || r[|r| - 1] != '/'
    ensures AllSlashes(s[|r|..])
  {
    if s != [] && s[|s| - 1] == '/' then
      var r := RStripSlash(s[..|s| - 1]);
      assert s[|r|..] == s[..|s| - 1][|r|..] + ['/'];
      r
    else s
  }

  /** `posixpath.dirname(p)`: the directory part without its trailing slashes,
      unless it is made of slashes only. */
  function Dirname(p: string): string
  {
    var head := p[..SplitPoint(p)];
    if head != [] && !AllSlashes(head) then RStripSlash(head) else head
  }

  /** `posixpath.join(a, b)`. */
  function Join(a: string, b: string): string
  {
    if |b| > 0 && b[0] == '/' then b
    else if a == [] || a[|a| - 1] == '/' then a + b
    else a + "/" + b
  }

  /** A directory name is empty, made of slashes, or does not end in a slash. */
  lemma DirnameShape(p: string)
    ensures var d := Dirname(p); d == [] || AllSlashes(d) || d[|d| - 1] != '/'
  {
  }

  /** Appending text without slashes leaves the split point where it was. */
  lemma {:induction false} SplitPointAppend(x: string, name: string)
    requires '/' !in name
    ensures SplitPoint(x + name) == SplitPoint(x)
    decreases |name|
  {
    if name != [] {
      var n' := name[..|name| - 1];
      assert (x + name)[..|x + name| - 1] == x + n';
      assert name[|name| - 1] in name;
      SplitPointAppend(x, n');
    } else {
      assert x + name == x;
    }
  }

  /** Joining a file name (no slash, not empty) to the directory of `p` gives a
      path whose directory is that of `p` and whose base name is the file name:
      the new file sits beside `p`. */
  lemma JoinBeside(p: string, name: string)
    requires name != [] && '/' !in name
    ensures Dirname(Join(Dirname(p), name)) == Dirname(p)
    ensures Basename(Join(Dirname(p), name)) == name
  {
    var d := Dirname(p);
    var j := Join(d, name);
    DirnameShape(p);
    assert name[0] in name;
    if d == [] {
      assert j == [] + name;
      SplitPointAppend([], name);
    } else if d[|d| - 1] == '/' {
      assert AllSlashes(d);
      assert j == d + name;
      SplitPointAppend(d, name);
      assert SplitPoint(d) == |d|;
      assert j[..|d|] == d;
    } else {
      var ds := d + "/";
      assert j == ds + name;
      SplitPointAppend(ds, name);
      assert SplitPoint(ds) == |ds|;
      assert j[..|ds|] == ds;
      assert !AllSlashes(ds) by { assert ds[|d| - 1] != '/'; }
      assert RStripSlash(ds) == RStripSlash(d);
      assert RStripSlash(d) == d;
    }
  }
}

=== FILE: progress_store.dfy ===
/** The progress record of a download: a hidden file beside the output holding
    one fixed-width big-endian byte count per shard (`_read_chunk_progress`,
    `_write_chunk_progress`). The shard count and the slot width are class
    attributes the source reads but never defines; here they are parameters. */
module ProgressStore {
  import opened Common
  import opened BigEndian
  import opened Files
  import opened ShardPaths

  /** The bytes the i-th `f.read(record_size)` of a sequential read returns:
      fewer, or none, once the file runs out. */
  function Slot(data: seq<byte>, i: nat, recordSize: nat): seq<byte>
  {
    PySlice(data, i * recordSize, (i + 1) * recordSize)
  }

  /** The numbers a read of an existing progress file returns. */
  function DecodeSlots(data: seq<byte>, numShards: nat, recordSize: nat): (r: seq<nat>)
    ensures |r| == numShards
  {
    seq(numShards, i requires 0 <= i < numShards => FromBytes(Slot(data, i, recordSize)))
  }

  /** `written_bytes.to_bytes(_get_byte_length(written_bytes), 'big')`: the
      shortest big-endian encoding, empty for 0. */
  function MinimalEncoding(v: nat): seq<byte>
  {
    ToBytes(v, ByteLength(v))
  }

  /** The progress file after `_write_chunk_progress` as written: the minimal
      encoding of `v` placed at the start of slot `shardId`. */
  function WriteSlot(data: seq<byte>, shardId: nat, v: nat, recordSize: nat): seq<byte>
  {
    PositionalWrite(data, shardId * recordSize, MinimalEncoding(v))
  }

  datatype WriteError = FileNotFoundError | OverflowError

  /** `_read_chunk_progress(out)`: decode the existing progress file slot by
      slot, or create it with a zero slot per shard and report zeros. */
  method ReadChunkProgress(disk: Disk, out: string, numShards: nat, recordSize: nat) returns (numbers: seq<nat>)
    modifies disk
    ensures ProgressPath(out) in old(disk.files) ==>
              && disk.files == old(disk.files)
              && numbers == DecodeSlots(old(disk.files)[ProgressPath(out)], numShards, recordSize)
    ensures ProgressPath(out) !in old(disk.files) ==>
              && disk.files == old(disk.files)[ProgressPath(out) := Zeros(numShards * recordSize)]
              && numbers == seq(numShards, _ => 0)
  {
    var path := ProgressPath(out);
    if path in disk.files {
      var data := disk.files[path];
      var pos := 0;
      var i := 0;
      numbers := [];
      while i < numShards
        invariant 0 <= i <= numShards
        invariant pos == Min(i * recordSize, |data|)
        invariant numbers == DecodeSlots(data, i, recordSize)
        invariant disk.files == old(disk.files)
      {
        var chunk := data[pos..Min(pos + recordSize, |data|)];
        NextSlot(data, i, recordSize, pos);
        DecodeSlotsSnoc(data, i, recordSize);
        numbers := numbers + [FromBytes(chunk)];
        pos := pos + |chunk|;
        i := i + 1;
      }
    } else {
      disk.files := disk.files[path := []];
      var i := 0;
      while i < numShards
        invariant 0 <= i <= numShards
        invariant disk.files == old(disk.files)[path := Zeros(i * recordSize)]
      {
        ZerosSnoc(i, recordSize);
        disk.files := disk.files[path := disk.files[path] + ToBytes(0, recordSize)];
        i := i + 1;
      }
      numbers := seq(numShards, _ => 0);
    }
  }

  /** The read at `pos`, where the first `i` slots end, returns slot `i`. */
  lemma NextSlot(data: seq<byte>, i: nat, recordSize: nat, pos: nat)
    requires pos == Min(i * recordSize, |data|)
    ensures var chunk := data[pos..Min(pos + recordSize, |data|)];
            chunk == Slot(data, i, recordSize) && pos + |chunk| == Min((i + 1) * recordSize, |data|)
  {
    assert (i + 1) * recordSize == i * recordSize + recordSize;
  }

  lemma DecodeSlotsSnoc(data: seq<byte>, i: nat, recordSize: nat)
    ensures DecodeSlots(data, i + 1, recordSize) == DecodeSlots(data, i, recordSize) + [FromBytes(Slot(data, i, recordSize))]
  {
  }

  /** One more zero slot extends the zero file by one slot. */
  lemma ZerosSnoc(i: nat, recordSize: nat)
    ensures Zeros(i * recordSize) + ToBytes(0, recordSize) == Zeros((i + 1) * recordSize)
  {
    ZeroEncoding(recordSize);
    assert (i + 1) * recordSize == i * recordSize + recordSize;
  }

  /** `_write_chunk_progress(out, written_bytes, shard_id)` as written: open the
      progress file for update (it must exist), seek to the slot and write the
      minimal encoding. */
  method WriteChunkProgress(disk: Disk, out: string, writtenBytes: nat, shardId: nat, recordSize: nat)
    returns (r: Result<(), WriteError>)
    modifies disk
    ensures ProgressPath(out) !in old(disk.files) ==> r == Err(FileNotFoundError) && disk.files == old(disk.files)
    ensures ProgressPath(out) in old(disk.files) ==>
              && r == Ok(())
              && disk.files == old(disk.files)[ProgressPath(out) :=
                   WriteSlot(old(disk.files)[ProgressPath(out)], shardId, writtenBytes, recordSize)]
  {
    var path := ProgressPath(out);
    if path !in disk.files {
      return Err(FileNotFoundError);
    }
    var data := MinimalEncoding(writtenBytes);
    disk.files := disk.files[path := PositionalWrite(disk.files[path], shardId * recordSize, data)];
    r := Ok(());
  }

  /** The corrected write: encode on the full slot width, as the reader expects
      (`written_bytes.to_bytes(record_size, 'big')`, which raises when the count
      does not fit). */
  method WriteChunkProgressFixed(disk: Disk, out: string, writtenBytes: nat, shardId: nat, recordSize: nat)
    returns (r: Result<(), WriteError>)
    modifies disk
    ensures ProgressPath(out) !in old(disk.files) ==> r == Err(FileNotFoundError) && disk.files == old(disk.files)
    ensures ProgressPath(out) in old(disk.files) ==>
              && r == (if writtenBytes < Pow256(recordSize) then Ok(()) else Err(OverflowError))
              && disk.files == (if r.Ok? then old(disk.files)[ProgressPath(out) :=
                   WriteSlotFixed(old(disk.files)[ProgressPath(out)], shardId, writtenBytes, recordSize)]
                 else old(disk.files))
  {
    var path := ProgressPath(out);
    if path !in disk.files {
      return Err(FileNotFoundError);
    }
    if writtenBytes >= Pow256(recordSize) {
      return Err(OverflowError);
    }
    var data := ToBytes(writtenBytes, recordSize);
    disk.files := disk.files[path := PositionalWrite(disk.files[path], shardId * recordSize, data)];
    r := Ok(());
  }

  /** The progress file after the corrected write. */
  function WriteSlotFixed(data: seq<byte>, shardId: nat, v: nat, recordSize: nat): seq<byte>
  {
    PositionalWrite(data, shardId * recordSize, ToBytes(v, recordSize))
  }

  // ---------------------------------------------------------------- properties

  lemma {:induction false} ZeroEncoding(len: nat)
    ensures ToBytes(0, len) == Zeros(len)
  {
    if len > 0 {
      ZeroEncoding(len - 1);
    }
  }

  lemma {:induction false} ZerosReadAsZero(bs: seq<byte>)
    requires forall i :: 0 <= i < |bs| ==> bs[i] == 0
    ensures FromBytes(bs) == 0
  {
    if bs != [] {
      ZerosReadAsZero(bs[..|bs| - 1]);
    }
  }

  /** A freshly created progress file reads back as all zeros, one per shard, so
      a first read and every later read before any write agree. */
  lemma FreshFileReadsZero(numShards: nat, recordSize: nat)
    ensures DecodeSlots(Zeros(numShards * recordSize), numShards, recordSize) == seq(numShards, _ => 0)
  {
    var z := Zeros(numShards * recordSize);
    forall i | 0 <= i < numShards
      ensures FromBytes(Slot(z, i, recordSize)) == 0
    {
      ZerosReadAsZero(Slot(z, i, recordSize));
    }
  }

  /** Writing a count changes only the bytes `[shardId * record_size,
      shardId * record_size + k)`, `k` the minimal length; a count of 0 writes
      nothing at all. */
  lemma WriteSlotFootprint(data: seq<byte>, shardId: nat, v: nat, recordSize: nat)
    ensures v == 0 ==> WriteSlot(data, shardId, v, recordSize) == data
    ensures var w, pos, k := WriteSlot(data, shardId, v, recordSize), shardId * recordSize, ByteLength(v);
            && |w| >= |data|
            && (forall i :: 0 <= i < |data| && !(pos <= i < pos + k) ==> w[i] == data[i])
  {
    ByteLengthIsMinimal(v);
  }

  lemma MulAtLeast(a: nat, p: nat)
    requires p >= 256
    ensures a * p >= 256 * a
  {
    assert a * p - 256 * a == a * (p - 256);
  }

  lemma Pow256AtLeast(k: nat)
    requires k >= 1
    ensures Pow256(k) >= 256
  {
  }

  /** The slot `shardId` after a write, when the file already covers it: the
      written bytes, cut to the slot or followed by what the slot held. */
  lemma SlotAfterWrite(data: seq<byte>, shardId: nat, w: seq<byte>, recordSize: nat)
    requires (shardId + 1) * recordSize <= |data|
    ensures var pos := shardId * recordSize;
            Slot(PositionalWrite(data, pos, w), shardId, recordSize)
            == if |w| >= recordSize then w[..recordSize] else w + data[pos + |w|..pos + recordSize]
  {
    var pos := shardId * recordSize;
    assert (shardId + 1) * recordSize == pos + recordSize;
    WindowAfterWrite(data, pos, w, recordSize);
  }

  /** The `len` bytes at `pos` after a write at `pos` inside the file. */
  lemma WindowAfterWrite(data: seq<byte>, pos: nat, w: seq<byte>, len: nat)
    requires pos + len <= |data|
    ensures PySlice(PositionalWrite(data, pos, w), pos, pos + len)
            == if |w| >= len then w[..len] else w + data[pos + |w|..pos + len]
  {
    var after := PositionalWrite(data, pos, w);
    var s := PySlice(after, pos, pos + len);
    var want := if |w| >= len then w[..len] else w + data[pos + |w|..pos + len];
    assert |s| == len == |want|;
    forall i | 0 <= i < len ensures s[i] == want[i] {
      assert s[i] == after[pos + i];
    }
  }

  /** An encoding followed by more bytes reads as at least 256 times its value. */
  lemma ShortEncodingMisread(enc: seq<byte>, tail: seq<byte>)
    requires |tail| >= 1
    ensures FromBytes(enc + tail) >= 256 * FromBytes(enc)
  {
    FromBytesAppend(enc, tail);
    Pow256AtLeast(|tail|);
    MulAtLeast(FromBytes(enc), Pow256(|tail|));
  }

  /** The first `n` bytes of a longer encoding read as at most 1/256 of its value. */
  lemma LongEncodingMisread(enc: seq<byte>, n: nat)
    requires n < |enc|
    ensures 256 * FromBytes(enc[..n]) <= FromBytes(enc)
  {
    var head, rest := enc[..n], enc[n..];
    assert enc == head + rest;
    FromBytesAppend(head, rest);
    Pow256AtLeast(|rest|);
    MulAtLeast(FromBytes(head), Pow256(|rest|));
  }

  /** Read after write, as written: a positive count written into a slot of an
      existing file reads back as itself exactly when its minimal length equals
      the slot width. A shorter encoding is read with the stale low-order bytes
      after it; a longer one is cut to its high-order bytes. */
  lemma ReadAfterWrite(data: seq<byte>, shardId: nat, v: nat, recordSize: nat)
    requires (shardId + 1) * recordSize <= |data|
    requires v > 0
    ensures FromBytes(Slot(WriteSlot(data, shardId, v, recordSize), shardId, recordSize)) == v
            <==> ByteLength(v) == recordSize
  {
    var enc := MinimalEncoding(v);
    MinimalEncodingFacts(v);
    var pos := shardId * recordSize;
    assert (shardId + 1) * recordSize == pos + recordSize;
    var after := PositionalWrite(data, pos, enc);
    assert Slot(after, shardId, recordSize) == PySlice(after, pos, pos + recordSize);
    var r := FromBytes(PySlice(after, pos, pos + recordSize));
    if |enc| < recordSize {
      ShortWriteMisreads(data, pos, enc, recordSize);
      assert r >= 256 * v;
    } else if |enc| > recordSize {
      LongWriteMisreads(data, pos, enc, recordSize);
      assert 256 * r <= v;
    } else {
      WindowAfterWrite(data, pos, enc, recordSize);
      assert enc[..recordSize] == enc;
    }
  }

  /** The minimal encoding has `ByteLength(v)` bytes and reads back as `v`. */
  lemma MinimalEncodingFacts(v: nat)
    ensures |MinimalEncoding(v)| == ByteLength(v)
    ensures FromBytes(MinimalEncoding(v)) == v
  {
    ByteLengthIsMinimal(v);
    FromToBytes(v, ByteLength(v));
  }

  /** An encoding shorter than the slot is read with the slot's old low-order bytes after it. */
  lemma ShortWriteMisreads(data: seq<byte>, pos: nat, enc: seq<byte>, len: nat)
    requires pos + len <= |data|
    requires |enc| < len
    ensures FromBytes(PySlice(PositionalWrite(data, pos, enc), pos, pos + len)) >= 256 * FromBytes(enc)
  {
    var tail := data[pos + |enc|..pos + len];
    WindowAfterWrite(data, pos, enc, len);
    ShortEncodingMisread(enc, tail);
  }

  /** An encoding longer than the slot is cut to its high-order bytes. */
  lemma LongWriteMisreads(data: seq<byte>, pos: nat, enc: seq<byte>, len: nat)
    requires pos + len <= |data|
    requires |enc| > len
    ensures 256 * FromBytes(PySlice(PositionalWrite(data, pos, enc), pos, pos + len)) <= FromBytes(enc)
  {
    WindowAfterWrite(data, pos, enc, len);
    LongEncodingMisread(enc, len);
  }

  /** A count of 0 writes nothing, so the slot keeps whatever it held. */
  lemma ReadAfterWriteZero(data: seq<byte>, shardId: nat, recordSize: nat)
    ensures WriteSlot(data, shardId, 0, recordSize) == data
  {
    WriteSlotFootprint(data, shardId, 0, recordSize);
  }

  /** With 8-byte slots, writing 1 into a zeroed slot stores one byte 0x01 at the
      slot's start, and the slot then reads as 2^56. */
  lemma WriteOneReadsTwoToThe56()
    ensures FromBytes(Slot(WriteSlot(Zeros(8), 0, 1, 8), 0, 8)) == 72057594037927936
  {
    assert BitLength(1) == 1;
    assert ByteLength(1) == 1;
    var enc := MinimalEncoding(1);
    assert enc == [1];
    SlotAfterWrite(Zeros(8), 0, enc, 8);
    var tail := Zeros(8)[1..8];
    ZerosReadAsZero(tail);
    FromBytesAppend(enc, tail);
    assert FromBytes(enc) == 1;
    assert Pow256(7) == 72057594037927936;
  }

  lemma MulMonotone(a: nat, b: nat, c: nat)
    requires a <= b
    ensures a * c <= b * c
  {
    assert b * c - a * c == (b - a) * c;
  }

  /** A write inside the file leaves every range that does not overlap it as it was. */
  lemma WriteBesideRange(data: seq<byte>, pos: nat, w: seq<byte>, lo: nat, hi: nat)
    requires pos + |w| <= |data|
    requires hi <= pos || pos + |w| <= lo
    ensures PySlice(PositionalWrite(data, pos, w), lo, hi) == PySlice(data, lo, hi)
  {
    var after := PositionalWrite(data, pos, w);
    assert |after| == |data|;
    var a, b := PySlice(after, lo, hi), PySlice(data, lo, hi);
    forall i | 0 <= i < |a| ensures a[i] == b[i] {
      assert a[i] == after[Min(lo, |data|) + i];
    }
  }

  /** A write that fills slot `shardId` exactly leaves every other slot as it was. */
  lemma OtherSlotUnchanged(data: seq<byte>, shardId: nat, w: seq<byte>, recordSize: nat, j: nat)
    requires (shardId + 1) * recordSize <= |data|
    requires |w| == recordSize && j != shardId
    ensures Slot(PositionalWrite(data, shardId * recordSize, w), j, recordSize) == Slot(data, j, recordSize)
  {
    var pos, lo, hi := shardId * recordSize, j * recordSize, (j + 1) * recordSize;
    assert (shardId + 1) * recordSize == pos + recordSize;
    assert hi == lo + recordSize;
    if j < shardId {
      MulMonotone(j + 1, shardId, recordSize);
    } else {
      MulMonotone(shardId + 1, j, recordSize);
    }
    WriteBesideRange(data, pos, w, lo, hi);
  }

  /** Read after the corrected write: the slot written reads as the count, and
      every other slot reads as before. */
  lemma ReadAfterFixedWrite(data: seq<byte>, numShards: nat, shardId: nat, v: nat, recordSize: nat)
    requires (shardId + 1) * recordSize <= |data|
    requires v < Pow256(recordSize)
    ensures var after := WriteSlotFixed(data, shardId, v, recordSize);
            forall j :: 0 <= j < numShards ==>
              DecodeSlots(after, numShards, recordSize)[j]
              == if j == shardId then v else DecodeSlots(data, numShards, recordSize)[j]
  {
    var enc := ToBytes(v, recordSize);
    var after := WriteSlotFixed(data, shardId, v, recordSize);
    SlotAfterWrite(data, shardId, enc, recordSize);
    assert Slot(after, shardId, recordSize) == enc;
    FromToBytes(v, recordSize);
    forall j | 0 <= j < numShards && j != shardId
      ensures Slot(after, j, recordSize) == Slot(data, j, recordSize)
    {
      OtherSlotUnchanged(data, shardId, enc, recordSize, j);
    }
  }
}

=== FILE: py_range.dfy ===
/** Python integer floor division and `range(lo, hi, step)`, which the range
    planner, the upload batching and the `pull` loop all iterate over. */
module PyRange {

  /** Python's `a // b`: the quotient rounded toward minus infinity. */
  function FloorDiv(a: int, b: int): (q: int)
    requires b != 0
    ensures b > 0 ==> q * b <= a < q * b + b
    ensures b < 0 ==> q * b >= a > q * b + b
  {
    if b > 0 then a / b else (-a) / (-b)
  }

  /** Dividing by a count no larger than `a` gives at least one. */
  lemma FloorDivAtLeastOne(a: int, b: int)
    requires 0 < b <= a
    ensures FloorDiv(a, b) >= 1
  {
    var q := FloorDiv(a, b);
    assert (q - 1) * b + b == q * b;
    assert (q - 1) * b > -b;
  }

  /** Dividing a smaller non-negative number gives zero. */
  lemma FloorDivSmall(a: int, b: int)
    requires 0 <= a < b
    ensures FloorDiv(a, b) == 0
  {
    var q := FloorDiv(a, b);
    assert (q - 1) * b + b == q * b;
    assert (q + 1) * b == q * b + b;
    assert (q - 1) * b < 0;
    assert (q + 1) * b > 0;
  }

  /** Dividing a non-negative number by a negative one never gives a positive. */
  lemma FloorDivNegative(a: int, b: int)
    requires 0 <= a && b < 0
    ensures FloorDiv(a, b) <= 0
  {
  }

  /** `list(range(lo, hi, step))` for a positive step. */
  function Starts(lo: int, hi: int, step: int): (r: seq<int>)
    requires step > 0
    decreases hi - lo
  {
    if lo >= hi then [] else [lo] + Starts(lo + step, hi, step)
  }

  /** The k-th value of the range is `lo + k * step`, and there are
      `ceil((hi - lo) / step)` of them: the count `n` is the one with
      `(n - 1) * step < hi - lo <= n * step`. */
  lemma {:induction false} StartsShape(lo: int, hi: int, step: int)
    requires step > 0
    ensures lo >= hi ==> Starts(lo, hi, step) == []
    ensures lo < hi ==> var n := |Starts(lo, hi, step)|; (n - 1) * step < hi - lo <= n * step
    ensures forall k :: 0 <= k < |Starts(lo, hi, step)| ==> Starts(lo, hi, step)[k] == lo + k * step
    decreases hi - lo
  {
    if lo < hi {
      var rest := Starts(lo + step, hi, step);
      StartsShape(lo + step, hi, step);
      var n := |rest| + 1;
      assert n * step == |rest| * step + step;
      forall k | 1 <= k < n
        ensures Starts(lo, hi, step)[k] == lo + k * step
      {
        assert Starts(lo, hi, step)[k] == rest[k - 1];
        assert (k - 1) * step + step == k * step;
      }
    }
  }

  /** Every value lies in `[lo, hi)` and the last one is within one step of `hi`. */
  lemma {:induction false} StartsBounds(lo: int, hi: int, step: int)
    requires step > 0
    ensures forall x :: x in Starts(lo, hi, step) ==> lo <= x < hi
    ensures lo < hi ==> var s := Starts(lo, hi, step); |s| > 0 && hi <= s[|s| - 1] + step
    decreases hi - lo
  {
    if lo < hi {
      StartsBounds(lo + step, hi, step);
    }
  }

  /** `a // b` for a positive `b` is the one `q` with `q * b <= a < q * b + b`. */
  lemma FloorDivUnique(a: int, b: int, q: int)
    requires b > 0 && q * b <= a < q * b + b
    ensures FloorDiv(a, b) == q
  {
    var r := FloorDiv(a, b);
    MulMonotoneIf(r, q - 1, b);
    MulMonotoneIf(q + 1, r, b);
  }

  lemma MulMonotoneIf(x: int, y: int, b: int)
    requires b > 0
    ensures x <= y ==> x * b <= y * b
  {
    assert y * b - x * b == (y - x) * b;
  }
}

=== FILE: range_planner.dfy ===
/** The range planner `_calc_divisional_range(filesize, chuck)`: cut a file of
    `filesize` bytes into inclusive byte ranges (first-pos and last-pos of a
    byte-range-spec, section 14.1.2 of RFC 9110), one per shard request. */
module RangePlanner {
  import opened Common
  import opened PyRange

  /** `[s_pos, e_pos]`: both ends inclusive. */
  datatype ShardRange = ShardRange(start: int, end: int)

  /** The exceptions Python raises on the way: `filesize // 0`, `range()` with a
      zero step, and `ranges[-1]` on an empty list. */
  datatype PlanError = ZeroDivisionError | RangeStepZero | IndexError

  function Length(r: ShardRange): int { r.end - r.start + 1 }

  /** `[[i, i + step - 1] for i in range(lo, hi, step)]`. */
  function Comprehension(lo: int, hi: int, step: int): seq<ShardRange>
    requires step > 0
    decreases hi - lo
  {
    if lo >= hi then [] else [ShardRange(lo, lo + step - 1)] + Comprehension(lo + step, hi, step)
  }

  /** Lines 206-209 as a value: the comprehension, with the end of its last range
      replaced by `filesize - 1`. */
  function Plan(filesize: nat, chuck: int): Result<seq<ShardRange>, PlanError>
  {
    if chuck == 0 then Err(ZeroDivisionError)
    else
      var step := FloorDiv(filesize, chuck);
      if step == 0 then Err(RangeStepZero)
      else if step < 0 then Err(IndexError)
      else
        var rs := Comprehension(0, filesize, step);
        Ok(rs[|rs| - 1 := ShardRange(rs[|rs| - 1].start, filesize - 1)])
  }

  /** The ranges, in order, cover `[lo, hi)` with no gap and no overlap. */
  predicate Partitions(rs: seq<ShardRange>, lo: int, hi: int)
  {
    && |rs| > 0
    && rs[0].start == lo
    && rs[|rs| - 1].end == hi - 1
    && (forall k :: 0 <= k < |rs| ==> rs[k].start <= rs[k].end)
    && (forall k :: 0 <= k < |rs| - 1 ==> rs[k].end + 1 == rs[k + 1].start)
  }

  predicate Holds(r: ShardRange, b: int) { r.start <= b <= r.end }

  /** The sum of the range lengths. */
  function TotalLength(rs: seq<ShardRange>): int
  {
    if rs == [] then 0 else Length(rs[0]) + TotalLength(rs[1..])
  }

  /** The planner as the source runs it: build the list with a loop over
      `range(0, filesize, step)`, then overwrite the last end. */
  method CalcDivisionalRange(filesize: nat, chuck: int) returns (r: Result<seq<ShardRange>, PlanError>)
    ensures r == Plan(filesize, chuck)
    ensures r.Ok? <==> 0 < chuck <= filesize
    ensures r.Ok? ==> Partitions(r.value, 0, filesize)
  {
    if chuck == 0 {
      return Err(ZeroDivisionError);
    }
    var step := FloorDiv(filesize, chuck);
    if step == 0 {
      return Err(RangeStepZero);
    }
    var ranges: seq<ShardRange> := [];
    if step > 0 {
      var i := 0;
      while i < filesize
        invariant ranges + Comprehension(i, filesize, step) == Comprehension(0, filesize, step)
        decreases filesize - i
      {
        ranges := ranges + [ShardRange(i, i + step - 1)];
        i := i + step;
      }
      assert ranges == Comprehension(0, filesize, step);
    }
    if |ranges| == 0 {
      return Err(IndexError);
    }
    ranges := ranges[|ranges| - 1 := ShardRange(ranges[|ranges| - 1].start, filesize - 1)];
    r := Ok(ranges);
    PlanSucceeds(filesize, chuck);
    PlanShape(filesize, chuck);
  }

  /** The comprehension follows `range(lo, hi, step)` element by element. */
  lemma {:induction false} ComprehensionFollowsRange(lo: int, hi: int, step: int)
    requires step > 0
    ensures |Comprehension(lo, hi, step)| == |Starts(lo, hi, step)|
    ensures forall k :: 0 <= k < |Starts(lo, hi, step)| ==>
              Comprehension(lo, hi, step)[k]
              == ShardRange(Starts(lo, hi, step)[k], Starts(lo, hi, step)[k] + step - 1)
    decreases hi - lo
  {
    if lo < hi {
      ComprehensionFollowsRange(lo + step, hi, step);
    }
  }

  /** Planning succeeds exactly when the step `filesize // chuck` is at least one. */
  lemma PlanSucceeds(filesize: nat, chuck: int)
    ensures Plan(filesize, chuck).Ok? <==> 0 < chuck <= filesize
  {
    if chuck > 0 && filesize >= chuck {
      FloorDivAtLeastOne(filesize, chuck);
      assert Comprehension(0, filesize, FloorDiv(filesize, chuck)) != [];
    } else if chuck > filesize {
      FloorDivSmall(filesize, chuck);
    } else if chuck < 0 {
      FloorDivNegative(filesize, chuck);
    }
  }

  /** The shape of a successful plan with step `s = filesize // chuck`: there are
      `n = ceil(filesize / s)` ranges; range `k` starts at `k * s`; all but the last
      are `s` bytes long and the last holds between 1 and `s` bytes; and together
      they partition `[0, filesize)`. */
  lemma PlanShape(filesize: nat, chuck: int)
    requires Plan(filesize, chuck).Ok?
    ensures var rs, s := Plan(filesize, chuck).value, FloorDiv(filesize, chuck);
            && s >= 1
            && (|rs| - 1) * s < filesize <= |rs| * s
            && (forall k :: 0 <= k < |rs| ==> rs[k].start == k * s)
            && (forall k :: 0 <= k < |rs| - 1 ==> Length(rs[k]) == s)
            && 1 <= Length(rs[|rs| - 1]) <= s
            && Partitions(rs, 0, filesize)
  {
    PlanSucceeds(filesize, chuck);
    var s := FloorDiv(filesize, chuck);
    var rs := Plan(filesize, chuck).value;
    var st := Starts(0, filesize, s);
    StartsShape(0, filesize, s);
    ComprehensionFollowsRange(0, filesize, s);
    var n := |rs|;
    assert (n - 1) * s < filesize;
    forall k | 0 <= k < n - 1
      ensures rs[k].end + 1 == rs[k + 1].start
    {
      assert (k + 1) * s == k * s + s;
    }
  }

  /** The planner can return more ranges than the shard count asked for, never fewer. */
  lemma PlanCountAtLeastShards(filesize: nat, chuck: int)
    requires Plan(filesize, chuck).Ok?
    ensures |Plan(filesize, chuck).value| >= chuck
  {
    PlanCount(filesize, chuck);
    var s := FloorDiv(filesize, chuck);
    CountAtLeast(|Plan(filesize, chuck).value|, chuck, s, filesize);
  }

  /** The number of ranges of a successful plan is `ceil(filesize / step)`. */
  lemma PlanCount(filesize: nat, chuck: int)
    requires Plan(filesize, chuck).Ok?
    ensures var n, s := |Plan(filesize, chuck).value|, FloorDiv(filesize, chuck);
            chuck > 0 && s >= 1 && s * chuck <= filesize <= n * s
  {
    PlanSucceeds(filesize, chuck);
    var s := FloorDiv(filesize, chuck);
    StartsShape(0, filesize, s);
    ComprehensionFollowsRange(0, filesize, s);
  }

  /** `n` steps of `s` reach at least `c` steps of `s`, so `n >= c`. */
  lemma CountAtLeast(n: int, c: int, s: int, f: int)
    requires s >= 1 && s * c <= f <= n * s
    ensures n >= c
  {
    MulMonotoneIf(n + 1, c, s);
    assert (n + 1) * s == n * s + s;
  }

  /** 19 bytes in 10 shards: the step is 1, so the plan has 19 one-byte ranges. */
  lemma NineteenBytesTenShards()
    ensures Plan(19, 10).Ok? && |Plan(19, 10).value| == 19
  {
    PlanShape(19, 10);
    assert FloorDiv(19, 10) == 1;
  }

  /** A file smaller than the shard count cannot be planned (`range()` step 0). */
  lemma SmallFileFails(filesize: nat, chuck: int)
    requires 0 <= filesize < chuck
    ensures Plan(filesize, chuck) == Err(RangeStepZero)
  {
    FloorDivSmall(filesize, chuck);
  }

  /** 1000 bytes in 4 shards. */
  lemma ThousandBytesFourShards()
    ensures Plan(1000, 4)
            == Ok([ShardRange(0, 249), ShardRange(250, 499), ShardRange(500, 749), ShardRange(750, 999)])
  {
    assert FloorDiv(1000, 4) == 250;
    assert Comprehension(1000, 1000, 250) == [];
    assert Comprehension(750, 1000, 250) == [ShardRange(750, 999)];
    assert Comprehension(500, 1000, 250) == [ShardRange(500, 749), ShardRange(750, 999)];
    assert Comprehension(250, 1000, 250) == [ShardRange(250, 499), ShardRange(500, 749), ShardRange(750, 999)];
    var rs := Comprehension(0, 1000, 250);
    assert rs == [ShardRange(0, 249), ShardRange(250, 499), ShardRange(500, 749), ShardRange(750, 999)];
    assert rs[3 := ShardRange(750, 999)] == rs;
  }

  /** Ranges of a partition come in strictly increasing order. */
  lemma {:induction false} PartitionOrdered(rs: seq<ShardRange>, lo: int, hi: int, j: int, k: int)
    requires Partitions(rs, lo, hi)
    requires 0 <= j < k < |rs|
    ensures rs[j].end < rs[k].start
    decreases k - j
  {
    if j + 1 < k {
      PartitionOrdered(rs, lo, hi, j + 1, k);
    }
  }

  /** A partition of `[lo, hi)` without its first range partitions the rest. */
  lemma PartitionTail(rs: seq<ShardRange>, lo: int, hi: int)
    requires Partitions(rs, lo, hi) && |rs| > 1
    ensures Partitions(rs[1..], rs[0].end + 1, hi)
  {
  }

  /** Every offset of `[lo, hi)` lies in exactly one range of a partition. */
  lemma {:induction false} PartitionCovers(rs: seq<ShardRange>, lo: int, hi: int, b: int)
    requires Partitions(rs, lo, hi)
    requires lo <= b < hi
    ensures exists k :: 0 <= k < |rs| && Holds(rs[k], b)
    ensures forall j, k :: 0 <= j < |rs| && 0 <= k < |rs| && Holds(rs[j], b) && Holds(rs[k], b) ==> j == k
    decreases |rs|
  {
    if b <= rs[0].end {
      assert Holds(rs[0], b);
    } else {
      PartitionTail(rs, lo, hi);
      PartitionCovers(rs[1..], rs[0].end + 1, hi, b);
      var k :| 0 <= k < |rs[1..]| && Holds(rs[1..][k], b);
      assert Holds(rs[k + 1], b);
    }
    forall j, k | 0 <= j < |rs| && 0 <= k < |rs| && Holds(rs[j], b) && Holds(rs[k], b)
      ensures j == k
    {
      if j < k {
        PartitionOrdered(rs, lo, hi, j, k);
      } else if k < j {
        PartitionOrdered(rs, lo, hi, k, j);
      }
    }
  }

  /** The lengths of a partition of `[lo, hi)` add up to `hi - lo`. */
  lemma {:induction false} PartitionTotal(rs: seq<ShardRange>, lo: int, hi: int)
    requires Partitions(rs, lo, hi)
    ensures TotalLength(rs) == hi - lo
    decreases |rs|
  {
    if |rs| > 1 {
      PartitionTail(rs, lo, hi);
      PartitionTotal(rs[1..], rs[0].end + 1, hi);
    }
  }

  /** Every range of a partition of `[lo, hi)` lies inside it. */
  lemma PartitionBounds(rs: seq<ShardRange>, lo: int, hi: int)
    requires Partitions(rs, lo, hi)
    ensures forall k :: 0 <= k < |rs| ==> lo <= rs[k].start && rs[k].end < hi
  {
    var last := |rs| - 1;
    forall k | 0 <= k < |rs|
      ensures lo <= rs[k].start && rs[k].end < hi
    {
      if k > 0 {
        PartitionOrdered(rs, lo, hi, 0, k);
      }
      if k < last {
        PartitionOrdered(rs, lo, hi, k, last);
      }
    }
  }

  /** A partition without its last range partitions what comes before that range. */
  lemma PartitionInit(rs: seq<ShardRange>, lo: int, hi: int)
    requires Partitions(rs, lo, hi) && |rs| > 1
    ensures Partitions(rs[..|rs| - 1], lo, rs[|rs| - 1].start)
  {
  }
}

=== FILE: shard_fetch.dfy ===
/** One shard of a sharded download (`_async_range_download`): request the
    byte range `[s_pos, e_pos]`, resume after what an earlier run left in the
    shard file, and retry from the first missing byte after a network error,
    giving up after `max_retries` attempts. The HTTP client is replaced by a
    `Server`: the n-th request of the shard, sent with `Range: bytes=from-e`,
    gets the chunks the server streams followed by the end of the body or a
    network error. */
module ShardFetch {
  import opened Common
  import opened Text
  import opened Files
  import opened ShardPaths

  /** How a streamed response ends: the whole body arrived, or the connection failed. */
  datatype Outcome = BodyEnd | NetworkError

  /** The chunks `aiter_bytes()` yields, in order, and how the stream ends. */
  datatype Attempt = Attempt(chunks: seq<seq<byte>>, outcome: Outcome)

  /** `server(n, from)`: the response to request number `n` (from 0) whose
      range starts at absolute byte `from`. */
  type Server = (nat, nat) -> Attempt

  /** The bytes an attempt delivers; empty keep-alive chunks add nothing. */
  function Delivered(a: Attempt): seq<byte>
  {
    Flatten(a.chunks)
  }

  /** The `Range: bytes=first-last` header of a request (line 177). */
  datatype RangeRequest = RangeRequest(first: nat, last: nat)

  /** The header's text. */
  function HeaderValue(r: RangeRequest): string
  {
    "bytes=" + NatPair(r.first, r.last)
  }

  /** Request `k` was sent with the `Range` header for `starts[k]`. */
  predicate SentFor(requests: seq<RangeRequest>, starts: seq<nat>, ePos: nat)
  {
    && |requests| == |starts|
    && forall k :: 0 <= k < |starts| ==> requests[k] == RangeRequest(starts[k], ePos)
  }

  /** What the retry loop does: the first byte each request asks for, the
      bytes written to the sink, and whether it ended by raising the network
      error. `written` bytes are already in the sink and `retries` attempts
      have failed. */
  datatype Trace = Trace(starts: seq<nat>, got: seq<byte>, raised: bool)

  function Replay(server: Server, sPos: nat, written: nat, retries: nat, maxRetries: int): Trace
    decreases maxRetries - retries
  {
    if retries >= maxRetries then Trace([], [], false)
    else
      var a := server(retries, sPos + written);
      var d := Delivered(a);
      if a.outcome == BodyEnd then Trace([sPos + written], d, false)
      else if retries + 1 >= maxRetries then Trace([sPos + written], d, true)
      else
        var t := Replay(server, sPos, written + |d|, retries + 1, maxRetries);
        Trace([sPos + written] + t.starts, d + t.got, t.raised)
  }

  /** `_async_range_download(url, s_pos, e_pos, ...)`. With `out` given, the
      sink is the shard file beside it, created when missing and appended to;
      a shard file that already holds the whole range ends the call with no
      request. Without `out`, the sink is a fresh in-memory buffer, which is
      returned. A network error on the last allowed attempt is raised. */
  method RangeDownload(disk: Disk, server: Server, sPos: nat, ePos: nat, out: Option<string>, maxRetries: int)
    returns (requests: seq<RangeRequest>, r: Result<Option<seq<byte>>, Outcome>)
    modifies disk
    ensures out.None? ==>
              var t := Replay(server, sPos, 0, 0, maxRetries);
              && disk.files == old(disk.files)
              && SentFor(requests, t.starts, ePos)
              && r == (if t.raised then Err(NetworkError) else Ok(Some(t.got)))
    ensures out.Some? ==>
              var path := ShardPath(out.value, sPos, ePos);
              var existing := if path in old(disk.files) then old(disk.files)[path] else [];
              if |existing| == ePos - sPos + 1 then
                && requests == []
                && r == Ok(None)
                && disk.files == old(disk.files)[path := existing]
              else
                var t := Replay(server, sPos, |existing|, 0, maxRetries);
                && SentFor(requests, t.starts, ePos)
                && r == (if t.raised then Err(NetworkError) else Ok(None))
                && disk.files == old(disk.files)[path := existing + t.got]
  {
    if out.None? {
      var got, raised;
      ghost var starts;
      requests, got, raised, starts := RetryLoop(disk, server, sPos, ePos, false, "", 0, maxRetries);
      ReplayFromSplit(server, sPos, 0, 0, maxRetries, [], []);
      ghost var t := Replay(server, sPos, 0, 0, maxRetries);
      assert [] + t.starts == t.starts && [] + t.got == t.got;
      r := if raised then Err(NetworkError) else Ok(Some(got));
    } else {
      var path := ShardPath(out.value, sPos, ePos);
      var existing: seq<byte> := [];
      if path in disk.files {
        existing := disk.files[path];
      }
      disk.files := disk.files[path := existing];
      if |existing| == ePos - sPos + 1 {
        return [], Ok(None);
      }
      var got, raised;
      ghost var starts;
      requests, got, raised, starts := RetryLoop(disk, server, sPos, ePos, true, path, |existing|, maxRetries);
      ReplayFromSplit(server, sPos, |existing|, 0, maxRetries, [], []);
      ghost var t := Replay(server, sPos, |existing|, 0, maxRetries);
      assert [] + t.starts == t.starts && [] + t.got == t.got;
      UpdateTwice(old(disk.files), path, existing, existing + got);
      r := if raised then Err(NetworkError) else Ok(None);
    }
  }

  /** The `while retries < max_retries` loop, with `written` bytes already in
      the sink: the sink is the file at `path` when `toFile`, else a buffer
      whose new bytes are `got`. */
  method RetryLoop(disk: Disk, server: Server, sPos: nat, ePos: nat, toFile: bool, path: string,
                   written0: nat, maxRetries: int)
    returns (requests: seq<RangeRequest>, got: seq<byte>, raised: bool, ghost starts: seq<nat>)
    requires toFile ==> path in disk.files
    modifies disk
    ensures ReplayFrom(server, sPos, written0, 0, maxRetries, [], []) == Trace(starts, got, raised)
    ensures SentFor(requests, starts, ePos)
    ensures toFile ==> disk.files == old(disk.files)[path := old(disk.files)[path] + got]
    ensures !toFile ==> disk.files == old(disk.files)
  {
    var written := written0;
    ghost var base := if toFile then disk.files[path] else [];
    assert base + [] == base;
    assert toFile ==> disk.files[path := base] == disk.files;
    starts := [];
    ghost var total := ReplayFrom(server, sPos, written, 0, maxRetries, [], []);
    got := [];
    raised := false;
    var retries: nat := 0;
    requests := [];
    while retries < maxRetries
      invariant written == written0 + |got|
      invariant ReplayFrom(server, sPos, written, retries, maxRetries, starts, got) == total
      invariant SentFor(requests, starts, ePos)
      invariant toFile ==> disk.files == old(disk.files)[path := base + got]
      invariant !toFile ==> disk.files == old(disk.files)
      decreases maxRetries - retries
    {
      var from := sPos + written;
      ghost var trace := ReplayFrom(server, sPos, written, retries, maxRetries, starts, got);
      ghost var w0, n0, s0 := written, retries, starts;
      SentForSnoc(requests, starts, from, ePos);
      requests := requests + [RangeRequest(from, ePos)];
      starts := starts + [from];
      var a := server(retries, from);
      var d := Delivered(a);
      ghost var before := got;
      got := Stream(disk, toFile, path, a, got);
      written := written + |d|;
      UpdateTwice(old(disk.files), path, base + before, base + before + d);
      AppendAssoc(base, before, d);
      if a.outcome == BodyEnd {
        assert trace == Trace(starts, got, false);
        break;
      }
      retries := retries + 1;
      if retries >= maxRetries {
        assert trace == Trace(starts, got, true);
        raised := true;
        return;
      }
      ReplayFromStep(server, sPos, w0, n0, maxRetries, s0, before);
    }
  }

  /** An attempt that fails and is retried moves the loop one step on. */
  lemma ReplayFromStep(server: Server, sPos: nat, w: nat, n: nat, maxRetries: int, starts: seq<nat>, got: seq<byte>)
    requires n + 1 < maxRetries
    requires server(n, sPos + w).outcome == NetworkError
    ensures var d := Delivered(server(n, sPos + w));
            ReplayFrom(server, sPos, w, n, maxRetries, starts, got)
            == ReplayFrom(server, sPos, w + |d|, n + 1, maxRetries, starts + [sPos + w], got + d)
  {
  }

  lemma SentForSnoc(requests: seq<RangeRequest>, starts: seq<nat>, from: nat, ePos: nat)
    requires SentFor(requests, starts, ePos)
    ensures SentFor(requests + [RangeRequest(from, ePos)], starts + [from], ePos)
  {
  }

  /** The retry loop as it runs: `starts` and `got` are what the attempts so
      far produced. */
  function ReplayFrom(server: Server, sPos: nat, written: nat, retries: nat, maxRetries: int,
                      starts: seq<nat>, got: seq<byte>): Trace
    decreases maxRetries - retries
  {
    if retries >= maxRetries then Trace(starts, got, false)
    else
      var a := server(retries, sPos + written);
      var d := Delivered(a);
      if a.outcome == BodyEnd then Trace(starts + [sPos + written], got + d, false)
      else if retries + 1 >= maxRetries then Trace(starts + [sPos + written], got + d, true)
      else ReplayFrom(server, sPos, written + |d|, retries + 1, maxRetries, starts + [sPos + written], got + d)
  }

  /** Running the loop after some attempts appends the rest of the trace to
      what those attempts produced. */
  lemma {:induction false} ReplayFromSplit(server: Server, sPos: nat, written: nat, retries: nat, maxRetries: int,
                                           starts: seq<nat>, got: seq<byte>)
    ensures var t := Replay(server, sPos, written, retries, maxRetries);
            ReplayFrom(server, sPos, written, retries, maxRetries, starts, got)
            == Trace(starts + t.starts, got + t.got, t.raised)
    decreases maxRetries - retries
  {
    if retries >= maxRetries {
      assert starts + [] == starts && got + [] == got;
    } else {
      var a := server(retries, sPos + written);
      var d := Delivered(a);
      if a.outcome == NetworkError && retries + 1 < maxRetries {
        var t := Replay(server, sPos, written + |d|, retries + 1, maxRetries);
        ReplayFromSplit(server, sPos, written + |d|, retries + 1, maxRetries, starts + [sPos + written], got + d);
        AppendAssoc(starts, [sPos + written], t.starts);
        AppendAssoc(got, d, t.got);
      }
    }
  }

  /** The `async for chunk in r.aiter_bytes()` loop: every non-empty chunk is
      written to the sink in order. */
  method Stream(disk: Disk, toFile: bool, path: string, a: Attempt, got0: seq<byte>) returns (got: seq<byte>)
    requires toFile ==> path in disk.files
    modifies disk
    ensures got == got0 + Delivered(a)
    ensures toFile ==> disk.files == old(disk.files)[path := old(disk.files)[path] + Delivered(a)]
    ensures !toFile ==> disk.files == old(disk.files)
  {
    got := got0;
    var k := 0;
    ghost var base := if toFile then disk.files[path] else [];
    assert a.chunks[..0] == [] && base + [] == base;
    assert toFile ==> disk.files[path := base] == disk.files;
    while k < |a.chunks|
      invariant 0 <= k <= |a.chunks|
      invariant got == got0 + Flatten(a.chunks[..k])
      invariant toFile ==> disk.files == old(disk.files)[path := base + Flatten(a.chunks[..k])]
      invariant !toFile ==> disk.files == old(disk.files)
    {
      var chunk := a.chunks[k];
      assert a.chunks[..k + 1][..k] == a.chunks[..k];
      assert Flatten(a.chunks[..k + 1]) == Flatten(a.chunks[..k]) + chunk;
      AppendAssoc(base, Flatten(a.chunks[..k]), chunk);
      AppendAssoc(got0, Flatten(a.chunks[..k]), chunk);
      if |chunk| > 0 {
        got := got + chunk;
        if toFile {
          UpdateTwice(old(disk.files), path, base + Flatten(a.chunks[..k]), base + Flatten(a.chunks[..k]) + chunk);
          disk.files := disk.files[path := disk.files[path] + chunk];
        }
      } else {
        assert Flatten(a.chunks[..k]) + chunk == Flatten(a.chunks[..k]);
      }
      k := k + 1;
    }
    assert a.chunks[..k] == a.chunks;
  }

  // ---------------------------------------------------------------- properties

  /** At most `max_retries` requests are sent, and at least one when it is
      positive; the error is raised only after `max_retries` failed attempts. */
  lemma {:induction false} RetryBound(server: Server, sPos: nat, written: nat, retries: nat, maxRetries: int)
    ensures var t := Replay(server, sPos, written, retries, maxRetries);
            && |t.starts| <= Max(0, maxRetries - retries)
            && (retries < maxRetries ==> |t.starts| >= 1)
            && (t.raised ==> |t.starts| == maxRetries - retries)
    decreases maxRetries - retries
  {
    var t := Replay(server, sPos, written, retries, maxRetries);
    if retries < maxRetries {
      var from := sPos + written;
      var a := server(retries, from);
      var d := Delivered(a);
      if a.outcome == NetworkError && retries + 1 < maxRetries {
        var u := Replay(server, sPos, written + |d|, retries + 1, maxRetries);
        assert t == Trace([from] + u.starts, d + u.got, u.raised);
        RetryBound(server, sPos, written + |d|, retries + 1, maxRetries);
      } else {
        assert t.starts == [from];
      }
    }
  }

  /** Requests `retries`, `retries + 1`, ... were sent from `starts`, and all
      but the last of them met a network error. */
  predicate EarlierFailed(server: Server, retries: nat, starts: seq<nat>)
  {
    forall k :: 0 <= k < |starts| - 1 ==> server(retries + k, starts[k]).outcome == NetworkError
  }

  lemma EarlierFailedCons(server: Server, retries: nat, from: nat, rest: seq<nat>)
    requires server(retries, from).outcome == NetworkError
    requires EarlierFailed(server, retries + 1, rest)
    ensures EarlierFailed(server, retries, [from] + rest)
  {
    var s := [from] + rest;
    forall k | 0 <= k < |s| - 1
      ensures server(retries + k, s[k]).outcome == NetworkError
    {
      if k > 0 {
        assert s[k] == rest[k - 1];
        assert retries + k == (retries + 1) + (k - 1);
      }
    }
  }

  /** Every request but the last met a network error. */
  lemma {:induction false} RetryEarlierFailed(server: Server, sPos: nat, written: nat, retries: nat, maxRetries: int)
    ensures EarlierFailed(server, retries, Replay(server, sPos, written, retries, maxRetries).starts)
    decreases maxRetries - retries
  {
    var t := Replay(server, sPos, written, retries, maxRetries);
    if retries < maxRetries {
      var from := sPos + written;
      var a := server(retries, from);
      var d := Delivered(a);
      if a.outcome == NetworkError && retries + 1 < maxRetries {
        var u := Replay(server, sPos, written + |d|, retries + 1, maxRetries);
        assert t == Trace([from] + u.starts, d + u.got, u.raised);
        RetryEarlierFailed(server, sPos, written + |d|, retries + 1, maxRetries);
        EarlierFailedCons(server, retries, from, u.starts);
      } else {
        assert t.starts == [from];
      }
    }
  }

  /** A run with an attempt left sends at least one request. */
  lemma ReplaySends(server: Server, sPos: nat, written: nat, retries: nat, maxRetries: int)
    requires retries < maxRetries
    ensures Replay(server, sPos, written, retries, maxRetries).starts != []
  {
  }

  /** The last request of `t`, the `retries`-th and later ones numbered from
      `retries`, met a network error exactly when `t` raises. */
  predicate LastOutcomeRaises(server: Server, retries: nat, t: Trace)
  {
    t.starts != [] ==>
      (server(retries + |t.starts| - 1, t.starts[|t.starts| - 1]).outcome == NetworkError <==> t.raised)
  }

  lemma LastOutcomeSingle(server: Server, retries: nat, from: nat, got: seq<byte>, raised: bool)
    requires raised == (server(retries, from).outcome == NetworkError)
    ensures LastOutcomeRaises(server, retries, Trace([from], got, raised))
  {
  }

  lemma LastOutcomeCons(server: Server, retries: nat, from: nat, got: seq<byte>, u: Trace)
    requires u.starts != []
    requires LastOutcomeRaises(server, retries + 1, u)
    ensures LastOutcomeRaises(server, retries, Trace([from] + u.starts, got, u.raised))
  {
    var s := [from] + u.starts;
    assert retries + |s| - 1 == (retries + 1) + |u.starts| - 1;
    assert s[|s| - 1] == u.starts[|u.starts| - 1];
  }

  /** The last request met a network error exactly when the call raises: a
      run that does not raise ends with a complete response. */
  lemma {:induction false} RetryLastOutcome(server: Server, sPos: nat, written: nat, retries: nat, maxRetries: int)
    ensures LastOutcomeRaises(server, retries, Replay(server, sPos, written, retries, maxRetries))
    decreases maxRetries - retries
  {
    var t := Replay(server, sPos, written, retries, maxRetries);
    if retries < maxRetries {
      var from := sPos + written;
      var a := server(retries, from);
      var d := Delivered(a);
      if a.outcome == NetworkError && retries + 1 < maxRetries {
        var u := Replay(server, sPos, written + |d|, retries + 1, maxRetries);
        assert t == Trace([from] + u.starts, d + u.got, u.raised);
        RetryLastOutcome(server, sPos, written + |d|, retries + 1, maxRetries);
        ReplaySends(server, sPos, written + |d|, retries + 1, maxRetries);
        LastOutcomeCons(server, retries, from, d + u.got, u);
      } else {
        assert t == Trace([from], d, a.outcome == NetworkError);
        LastOutcomeSingle(server, retries, from, d, a.outcome == NetworkError);
      }
    }
  }

  /** Each request of `starts` after the first starts where the bytes
      delivered by the one before it end. */
  predicate ResumesWhereLeft(server: Server, retries: nat, starts: seq<nat>)
  {
    forall k :: 0 <= k < |starts| - 1 ==>
      starts[k + 1] == starts[k] + |Delivered(server(retries + k, starts[k]))|
  }

  lemma ResumesCons(server: Server, retries: nat, from: nat, rest: seq<nat>)
    requires rest != [] ==> rest[0] == from + |Delivered(server(retries, from))|
    requires ResumesWhereLeft(server, retries + 1, rest)
    ensures ResumesWhereLeft(server, retries, [from] + rest)
  {
    var s := [from] + rest;
    forall k | 0 <= k < |s| - 1
      ensures s[k + 1] == s[k] + |Delivered(server(retries + k, s[k]))|
    {
      if k > 0 {
        assert s[k] == rest[k - 1] && s[k + 1] == rest[k];
        assert retries + k == (retries + 1) + (k - 1);
      }
    }
  }

  /** Every retry asks for the first byte not yet received: the first request
      starts after the bytes already in the sink, and each later one starts
      where the bytes delivered by the one before it end. */
  lemma {:induction false} RetryResumes(server: Server, sPos: nat, written: nat, retries: nat, maxRetries: int)
    ensures var t := Replay(server, sPos, written, retries, maxRetries);
            && (t.starts != [] ==> t.starts[0] == sPos + written)
            && ResumesWhereLeft(server, retries, t.starts)
    decreases maxRetries - retries
  {
    var t := Replay(server, sPos, written, retries, maxRetries);
    if retries < maxRetries {
      var from := sPos + written;
      var a := server(retries, from);
      var d := Delivered(a);
      if a.outcome == NetworkError && retries + 1 < maxRetries {
        var u := Replay(server, sPos, written + |d|, retries + 1, maxRetries);
        assert t == Trace([from] + u.starts, d + u.got, u.raised);
        RetryResumes(server, sPos, written + |d|, retries + 1, maxRetries);
        ResumesCons(server, retries, from, u.starts);
      } else {
        assert t.starts == [from];
      }
    }
  }

  /** A server that honours the range: whatever it streams for
      `bytes=from-e` is a prefix of `body[from..e]`, all of it when the body
      ends normally. */
  ghost predicate Honest(server: Server, body: seq<byte>, ePos: nat)
  {
    && ePos < |body|
    && forall n: nat, from: nat :: from <= ePos + 1 ==> HonestAt(server, body, ePos, n, from)
  }

  ghost predicate HonestAt(server: Server, body: seq<byte>, ePos: nat, n: nat, from: nat)
    requires from <= ePos + 1 && ePos < |body|
  {
    && Delivered(server(n, from)) <= body[from..ePos + 1]
    && (server(n, from).outcome == BodyEnd ==> Delivered(server(n, from)) == body[from..ePos + 1])
  }

  /** One response of an honest server: the next bytes of the range, all of
      them when the body ends normally. */
  lemma HonestAttempt(server: Server, body: seq<byte>, ePos: nat, n: nat, from: nat)
    requires Honest(server, body, ePos)
    requires from <= ePos + 1
    ensures var d := Delivered(server(n, from));
            && from + |d| <= ePos + 1
            && d == body[from..from + |d|]
            && (server(n, from).outcome == BodyEnd ==> from + |d| == ePos + 1)
  {
    assert HonestAt(server, body, ePos, n, from);
  }

  /** Against an honest server the sink only ever receives the next bytes of
      the range, and a run that does not raise receives all of it. */
  lemma {:induction false} ReplayStaysInRange(server: Server, body: seq<byte>, sPos: nat, ePos: nat,
                                              written: nat, retries: nat, maxRetries: int)
    requires Honest(server, body, ePos)
    requires sPos + written <= ePos + 1
    ensures var t := Replay(server, sPos, written, retries, maxRetries);
            && sPos + written + |t.got| <= ePos + 1
            && t.got == body[sPos + written..sPos + written + |t.got|]
            && (!t.raised && retries < maxRetries ==> sPos + written + |t.got| == ePos + 1)
    decreases maxRetries - retries
  {
    if retries < maxRetries {
      var t := Replay(server, sPos, written, retries, maxRetries);
      var from := sPos + written;
      var a := server(retries, from);
      var d := Delivered(a);
      HonestAttempt(server, body, ePos, retries, from);
      if a.outcome == NetworkError && retries + 1 < maxRetries {
        var u := Replay(server, sPos, written + |d|, retries + 1, maxRetries);
        assert t == Trace([from] + u.starts, d + u.got, u.raised);
        ReplayStaysInRange(server, body, sPos, ePos, written + |d|, retries + 1, maxRetries);
        SliceJoin(body, from, d, u.got);
      } else {
        assert t == Trace([from], d, a.outcome == NetworkError);
      }
    }
  }

  /** Two consecutive pieces of `body` make one. */
  lemma SliceJoin(body: seq<byte>, from: nat, d: seq<byte>, e: seq<byte>)
    requires from + |d| + |e| <= |body|
    requires d == body[from..from + |d|]
    requires e == body[from + |d|..from + |d| + |e|]
    ensures d + e == body[from..from + |d| + |e|]
  {
  }

  /** Resuming is correct: if the shard file holds the first bytes of the
      range, then after the call it still holds a prefix of the range, and the
      whole range when the call did not raise. */
  lemma ResumeCorrect(server: Server, body: seq<byte>, sPos: nat, ePos: nat, existing: seq<byte>, maxRetries: int)
    requires Honest(server, body, ePos)
    requires sPos + |existing| <= ePos + 1
    requires existing == body[sPos..sPos + |existing|]
    ensures var t := Replay(server, sPos, |existing|, 0, maxRetries);
            && existing + t.got <= body[sPos..ePos + 1]
            && (!t.raised && maxRetries >= 1 ==> existing + t.got == body[sPos..ePos + 1])
  {
    var t := Replay(server, sPos, |existing|, 0, maxRetries);
    ReplayStaysInRange(server, body, sPos, ePos, |existing|, 0, maxRetries);
    assert existing + t.got == body[sPos..sPos + |existing| + |t.got|];
  }

  /** The range header carries both ends and can be read back. */
  lemma RangeHeaderRoundTrip(from: nat, ePos: nat)
    ensures var h := HeaderValue(RangeRequest(from, ePos));
            h[..6] == "bytes=" && ParseNatPair(h[6..]) == Pair(from, ePos)
  {
    NatPairRoundTrip(from, ePos);
    assert HeaderValue(RangeRequest(from, ePos))[6..] == NatPair(from, ePos);
  }

  /** A shard `[250, 499]` whose file already holds 100 bytes is resumed with
      `Range: bytes=350-499`. */
  lemma ResumeScenario(server: Server)
    ensures var t := Replay(server, 250, 100, 0, 5);
            t.starts != [] && HeaderValue(RangeRequest(t.starts[0], 499)) == "bytes=350-499"
  {
    var t := Replay(server, 250, 100, 0, 5);
    assert t.starts[0] == 350;
    ResumeHeader();
  }

  lemma ResumeHeader()
    ensures HeaderValue(RangeRequest(350, 499)) == "bytes=350-499"
  {
    assert NatToString(3) == "3";
    assert NatToString(35) == "35";
    assert NatToString(350) == "350";
    assert NatToString(4) == "4";
    assert NatToString(49) == "49";
    assert NatToString(499) == "499";
  }
}

=== FILE: shard_paths.dfy ===
/** The names the downloader gives its files: the output name taken from the
    URL (`get_output_path`), the hidden shard files `d/.b.tmp{s}-{e}`
    (`get_shard_path`) and the hidden progress file `d/.b.progress`, where `d`
    and `b` are the directory and base name of the output path. */
module ShardPaths {
  import opened Text
  import opened PosixPath

  /** `get_output_path(url)`: `url.split("/")[-1]`. */
  function OutputPath(url: string): string
  {
    var parts := Split(url, '/');
    parts[|parts| - 1]
  }

  /** `get_shard_path(out, s_pos, e_pos)`. */
  function ShardPath(out: string, sPos: nat, ePos: nat): string
  {
    Join(Dirname(out), ShardName(out, sPos, ePos))
  }

  function ShardName(out: string, sPos: nat, ePos: nat): string
  {
    "." + Basename(out) + ".tmp" + NatPair(sPos, ePos)
  }

  /** The progress file of `out` (line 100 and line 116). */
  function ProgressPath(out: string): string
  {
    Join(Dirname(out), ProgressName(out))
  }

  function ProgressName(out: string): string
  {
    "." + Basename(out) + ".progress"
  }

  /** The output name is the URL's base name: the text after its last `/`. */
  lemma OutputPathIsBasename(url: string)
    ensures OutputPath(url) == Basename(url)
    ensures '/' !in OutputPath(url)
  {
    var parts := Split(url, '/');
    var last := parts[|parts| - 1];
    LastPartIsSuffix(url, '/');
    if |parts| == 1 {
      assert url == [] + last;
      SplitPointAppend([], last);
    } else {
      var head := JoinWith(parts[..|parts| - 1], "/") + "/";
      assert url == head + last;
      SplitPointAppend(head, last);
    }
  }

  lemma ShardNameHasNoSlash(out: string, sPos: nat, ePos: nat)
    ensures '/' !in ShardName(out, sPos, ePos)
  {
    var digits := NatPair(sPos, ePos);
    assert forall i :: 0 <= i < |NatToString(sPos)| ==> IsDigit(NatToString(sPos)[i]);
    assert forall i :: 0 <= i < |NatToString(ePos)| ==> IsDigit(NatToString(ePos)[i]);
    assert '/' !in digits;
  }

  /** The shard file sits in the directory of `out`, named `.{basename}.tmp{s}-{e}`. */
  lemma ShardPathBeside(out: string, sPos: nat, ePos: nat)
    ensures Dirname(ShardPath(out, sPos, ePos)) == Dirname(out)
    ensures Basename(ShardPath(out, sPos, ePos)) == ShardName(out, sPos, ePos)
  {
    ShardNameHasNoSlash(out, sPos, ePos);
    JoinBeside(out, ShardName(out, sPos, ePos));
  }

  /** The progress file sits in the directory of `out`, named `.{basename}.progress`. */
  lemma ProgressPathBeside(out: string)
    ensures Dirname(ProgressPath(out)) == Dirname(out)
    ensures Basename(ProgressPath(out)) == ProgressName(out)
  {
    JoinBeside(out, ProgressName(out));
  }

  /** Two ranges of one download never share a shard file. */
  lemma ShardPathsDistinct(out: string, s1: nat, e1: nat, s2: nat, e2: nat)
    requires ShardPath(out, s1, e1) == ShardPath(out, s2, e2)
    ensures s1 == s2 && e1 == e2
  {
    ShardPathBeside(out, s1, e1);
    ShardPathBeside(out, s2, e2);
    var prefix := "." + Basename(out) + ".tmp";
    var n1, n2 := ShardName(out, s1, e1), ShardName(out, s2, e2);
    assert n1 == n2;
    assert n1[|prefix|..] == NatPair(s1, e1);
    assert n2[|prefix|..] == NatPair(s2, e2);
    NatPairInjective(s1, e1, s2, e2);
  }

  /** A shard file is never the output file itself. */
  lemma ShardPathIsNotOutput(out: string, sPos: nat, ePos: nat)
    ensures ShardPath(out, sPos, ePos) != out
  {
    ShardPathBeside(out, sPos, ePos);
    assert |Basename(ShardPath(out, sPos, ePos))| > |Basename(out)|;
  }

  /** The progress file is neither a shard file nor the output file. */
  lemma ProgressPathIsSeparate(out: string, sPos: nat, ePos: nat)
    ensures ProgressPath(out) != ShardPath(out, sPos, ePos)
    ensures ProgressPath(out) != out
  {
    ShardPathBeside(out, sPos, ePos);
    ProgressPathBeside(out);
    NameEndings(out, sPos, ePos);
    var pn, sn := ProgressName(out), ShardName(out, sPos, ePos);
    assert pn[|pn| - 1] != sn[|sn| - 1];
    assert |pn| > |Basename(out)|;
  }

  /** A progress name ends in `s`, a shard name in a digit. */
  lemma NameEndings(out: string, sPos: nat, ePos: nat)
    ensures var pn := ProgressName(out); |pn| > 0 && pn[|pn| - 1] == 's'
    ensures var sn := ShardName(out, sPos, ePos); |sn| > 0 && IsDigit(sn[|sn| - 1])
  {
    var e := NatToString(ePos);
    var sn := ShardName(out, sPos, ePos);
    assert sn == ("." + Basename(out) + ".tmp" + NatToString(sPos) + "-") + e;
    assert IsDigit(e[|e| - 1]);
  }
}

=== FILE: text.dfy ===
/** Python string operations the downloader and the LFS tool rely on, written out
    over `seq<char>`: decimal formatting of integers (`f"{n}"`), `str.split(sep)`,
    `sep.join(parts)`, `str.startswith`, `str.strip()`, `str.replace(pat, "")` and
    ASCII lower-casing. */
module Text {
  import opened Common

  // ---------------------------------------------------------------- digits

  predicate IsDigit(c: char) { '0' <= c <= '9' }

  predicate AllDigits(s: string) { forall i :: 0 <= i < |s| ==> IsDigit(s[i]) }

  function DigitChar(d: nat): (c: char)
    requires d < 10
    ensures IsDigit(c)
  {
    ['0', '1', '2', '3', '4', '5', '6', '7', '8', '9'][d]
  }

  function DigitValue(c: char): (d: nat)
    requires IsDigit(c)
    ensures d < 10
  {
    (c as int) - ('0' as int)
  }

  lemma DigitRoundTrip(d: nat)
    requires d < 10
    ensures DigitValue(DigitChar(d)) == d
  {
  }

  /** `f"{n}"` for a non-negative integer: decimal, no leading zeros. */
  function NatToString(n: nat): (s: string)
    ensures |s| > 0 && AllDigits(s)
  {
    if n < 10 then [DigitChar(n)] else NatToString(n / 10) + [DigitChar(n % 10)]
  }

  /** The value of a run of decimal digits (`int(s)` on such a run). */
  function ParseDigits(s: string): nat
    requires AllDigits(s)
  {
    if s == [] then 0 else ParseDigits(s[..|s| - 1]) * 10 + DigitValue(s[|s| - 1])
  }

  /** Reading back a formatted number gives the number. */
  lemma {:induction false} ParseFormatted(n: nat)
    ensures ParseDigits(NatToString(n)) == n
  {
    var s := NatToString(n);
    if n < 10 {
      DigitRoundTrip(n);
    } else {
      ParseFormatted(n / 10);
      assert s[..|s| - 1] == NatToString(n / 10);
      DigitRoundTrip(n % 10);
    }
  }

  /** `f"{n}"` for any integer: a minus sign before the digits of a negative one. */
  function IntToString(n: int): (s: string)
    ensures |s| > 0
    ensures n >= 0 ==> s == NatToString(n)
    ensures n < 0 ==> s[0] == '-' && s[1..] == NatToString(-n)
  {
    if n >= 0 then NatToString(n) else "-" + NatToString(-n)
  }

  // ---------------------------------------------------------------- search

  /** Index of the first `c` in `s`, or `|s|` when there is none. */
  function IndexOf(s: string, c: char): (i: nat)
    ensures i <= |s|
    ensures i < |s| ==> s[i] == c
    ensures forall k :: 0 <= k < i ==> s[k] != c
  {
    if s == [] then 0 else if s[0] == c then 0 else 1 + IndexOf(s[1..], c)
  }

  lemma IndexOfAfter(x: string, c: char, y: string)
    requires c !in x
    ensures IndexOf(x + [c] + y, c) == |x|
  {
    var s := x + [c] + y;
    assert s[|x|] == c;
    assert forall k :: 0 <= k < |x| ==> s[k] == x[k];
  }

  /** `"{a}-{b}"` for two counts, as used in a byte-range and in a shard file name. */
  function NatPair(a: nat, b: nat): string
  {
    NatToString(a) + "-" + NatToString(b)
  }

  /** The two numbers written on either side of the first `-`. */
  function ParseNatPair(t: string): PairParse
  {
    var i := IndexOf(t, '-');
    if i < |t| && AllDigits(t[..i]) && AllDigits(t[i + 1..])
    then Pair(ParseDigits(t[..i]), ParseDigits(t[i + 1..]))
    else Malformed
  }

  datatype PairParse = Malformed | Pair(first: nat, second: nat)

  /** Reading a formatted pair back gives the pair, so the format is injective. */
  lemma NatPairRoundTrip(a: nat, b: nat)
    ensures ParseNatPair(NatPair(a, b)) == Pair(a, b)
  {
    var sa, sb := NatToString(a), NatToString(b);
    var t := NatPair(a, b);
    assert '-' !in sa by {
      assert forall k :: 0 <= k < |sa| ==> IsDigit(sa[k]);
    }
    IndexOfAfter(sa, '-', sb);
    assert t[..|sa|] == sa;
    assert t[|sa| + 1..] == sb;
    ParseFormatted(a);
    ParseFormatted(b);
  }

  lemma NatPairInjective(a: nat, b: nat, c: nat, d: nat)
    requires NatPair(a, b) == NatPair(c, d)
    ensures a == c && b == d
  {
    NatPairRoundTrip(a, b);
    NatPairRoundTrip(c, d);
  }

  // ---------------------------------------------------------------- split / join

  /** `s.split(sep)` with an explicit one-character separator: always at least one
      part, and empty parts are kept. */
  function Split(s: string, sep: char): (parts: seq<string>)
    ensures |parts| >= 1
    ensures forall k :: 0 <= k < |parts| ==> sep !in parts[k]
  {
    if s == [] then [""]
    else
      var rest := Split(s[1..], sep);
      if s[0] == sep then [""] + rest
      else [[s[0]] + rest[0]] + rest[1..]
  }

  /** `sep.join(parts)`. */
  function JoinWith(parts: seq<string>, sep: string): string
  {
    if parts == [] then ""
    else if |parts| == 1 then parts[0]
    else parts[0] + sep + JoinWith(parts[1..], sep)
  }

  /** Joining the parts of a split with the same separator gives the text back. */
  lemma {:induction false} SplitJoin(s: string, sep: char)
    ensures JoinWith(Split(s, sep), [sep]) == s
  {
    if s != [] {
      var rest := Split(s[1..], sep);
      SplitJoin(s[1..], sep);
      if s[0] == sep {
        assert Split(s, sep) == [""] + rest;
        assert ([""] + rest)[1..] == rest;
      } else {
        var parts := Split(s, sep);
        assert parts == [[s[0]] + rest[0]] + rest[1..];
        if |rest| == 1 {
          assert JoinWith(rest, [sep]) == rest[0];
        } else {
          assert parts[1..] == rest[1..];
          assert JoinWith(rest, [sep]) == rest[0] + [sep] + JoinWith(rest[1..], [sep]);
        }
      }
    }
  }

  /** A text without the separator splits into itself. */
  lemma {:induction false} SplitNoSeparator(s: string, sep: char)
    requires sep !in s
    ensures Split(s, sep) == [s]
  {
    if s != [] {
      SplitNoSeparator(s[1..], sep);
      assert [s[0]] + s[1..] == s;
    }
  }

  /** Splitting two texts joined by the separator splits each of them. */
  lemma {:induction false} SplitAppend(x: string, sep: char, y: string)
    ensures Split(x + [sep] + y, sep) == Split(x, sep) + Split(y, sep)
  {
    var ys := Split(y, sep);
    if x == [] {
      assert x + [sep] + y == [sep] + y;
      SplitCons(sep, y, sep);
    } else {
      var c, x' := x[0], x[1..];
      var t := x' + [sep] + y;
      assert x + [sep] + y == [c] + t;
      assert x == [c] + x';
      SplitAppend(x', sep, y);
      var rest := Split(x', sep);
      SplitCons(c, t, sep);
      SplitCons(c, x', sep);
      if c == sep {
        AppendAssoc([""], rest, ys);
      } else {
        var head := [c] + rest[0];
        ConsSplitTail(rest, ys);
        AppendAssoc([head], rest[1..], ys);
      }
    }
  }

  lemma ConsSplitTail<T>(a: seq<T>, b: seq<T>)
    requires a != []
    ensures (a + b)[0] == a[0] && (a + b)[1..] == a[1..] + b
  {
  }

  /** Splitting a text by its first character. */
  lemma SplitCons(c: char, t: string, sep: char)
    ensures var rest := Split(t, sep);
            Split([c] + t, sep) == if c == sep then [""] + rest else [[c] + rest[0]] + rest[1..]
  {
    assert ([c] + t)[1..] == t;
  }

  /** The last part of a split is the text after the last separator: it holds no
      separator and the text is what comes before it, then (when there is more
      than one part) the separator, then it. */
  lemma LastPartIsSuffix(s: string, sep: char)
    ensures var parts := Split(s, sep);
            var last := parts[|parts| - 1];
            && sep !in last
            && (|parts| == 1 ==> last == s)
            && (|parts| > 1 ==> s == JoinWith(parts[..|parts| - 1], [sep]) + [sep] + last)
  {
    var parts := Split(s, sep);
    SplitJoin(s, sep);
    if |parts| > 1 {
      JoinLast(parts, [sep]);
    }
  }

  lemma {:induction false} JoinLast(parts: seq<string>, sep: string)
    requires |parts| > 1
    ensures JoinWith(parts, sep) == JoinWith(parts[..|parts| - 1], sep) + sep + parts[|parts| - 1]
  {
    if |parts| > 2 {
      JoinLast(parts[1..], sep);
      assert parts[1..][..|parts| - 2] == parts[..|parts| - 1][1..];
    }
  }

  /** A join of two or more parts contains the separator. */
  lemma JoinHasSeparator(parts: seq<string>, sep: char)
    requires |parts| >= 2
    ensures sep in JoinWith(parts, [sep])
  {
    var j := JoinWith(parts, [sep]);
    assert j[|parts[0]|] == sep;
  }

  // ---------------------------------------------------------------- prefixes

  predicate StartsWith(s: string, prefix: string)
  {
    |prefix| <= |s| && s[..|prefix|] == prefix
  }

  /** `s.replace(pat, "")`: one left-to-right pass deleting non-overlapping
      occurrences of `pat`. */
  function RemoveAll(s: string, pat: string): string
    requires |pat| > 0
    decreases |s|
  {
    if |s| < |pat| then s
    else if s[..|pat|] == pat then RemoveAll(s[|pat|..], pat)
    else [s[0]] + RemoveAll(s[1..], pat)
  }

  /** Deleting a pattern that does not occur changes nothing. */
  lemma {:induction false} RemoveAbsent(s: string, pat: string)
    requires |pat| > 0
    requires !Occurs(s, pat)
    ensures RemoveAll(s, pat) == s
    decreases |s|
  {
    if |s| >= |pat| {
      assert s[..|pat|] != pat by { assert StartsWith(s[0..], pat) ==> Occurs(s, pat); }
      forall k | 0 <= k <= |s[1..]|
        ensures !StartsWith(s[1..][k..], pat)
      {
        assert s[1..][k..] == s[k + 1..];
      }
      RemoveAbsent(s[1..], pat);
    }
  }

  /** `pat in s` for strings. */
  predicate Occurs(s: string, pat: string)
  {
    exists k :: 0 <= k <= |s| && StartsWith(s[k..], pat)
  }

  // ---------------------------------------------------------------- whitespace

  /** The characters `str.strip()` removes and `int()` skips around a number:
      those for which Python's `str.isspace` holds. */
  predicate IsSpace(c: char)
  {
    || ('\t' <= c <= '\r') || ('\U{001C}' <= c <= ' ')
    || c == '\U{0085}' || c == '\U{00A0}' || c == '\U{1680}'
    || ('\U{2000}' <= c <= '\U{200A}') || c == '\U{2028}' || c == '\U{2029}'
    || c == '\U{202F}' || c == '\U{205F}' || c == '\U{3000}'
  }

  function LStrip(s: string): (r: string)
    ensures |r| <= |s| && r == s[|s| - |r|..]
    ensures r == [] || !IsSpace(r[0])
  {
    if s != [] && IsSpace(s[0]) then LStrip(s[1..]) else s
  }

  function RStrip(s: string): (r: string)
    ensures |r| <= |s| && r == s[..|r|]
    ensures r == [] || !IsSpace(r[|r| - 1])
  {
    if s != [] && IsSpace(s[|s| - 1]) then RStrip(s[..|s| - 1]) else s
  }

  /** `s.strip()`. */
  function Strip(s: string): string
  {
    RStrip(LStrip(s))
  }

  // ---------------------------------------------------------------- case

  function LowerChar(c: char): char
  {
    if 'A' <= c <= 'Z' then (c as int + 32) as char else c
  }

  /** ASCII lower-casing, as used to compare HTTP field names. */
  function Lower(s: string): (r: string)
    ensures |r| == |s|
    ensures forall i :: 0 <= i < |s| ==> r[i] == LowerChar(s[i])
  {
    seq(|s|, i requires 0 <= i < |s| => LowerChar(s[i]))
  }
}
